=== FILE: README.md ===
# autopixel core in Dafny

This project models the algorithmic core of the `autopixel` crate. The crate
turns a downsampled RGB image into a p5.js program that redraws the image as
a few coloured rectangles. The pipeline has five stages:

- **into_colors** reads the raw RGB buffer as a list of pixel colours.
- **median cut** reduces the palette. Buckets of colours are split at the
  median of their widest channel. A binary tree of colour boxes remembers
  the splits. Each pixel is then replaced by the median of the leaf box the
  tree leads it to.
- **colour order** counts the requantized colours and orders them by
  descending count.
- **decompose** is a quad-tree decomposition. The first colour takes the
  whole canvas. Each later colour covers its pixels with aligned
  power-of-two squares. A square is accepted only if it holds none of the
  pixels that earlier colours have claimed and at least one pixel of its own
  colour.
- **optimize** merges rectangles that share a full edge. Each pass sorts by
  column and sweeps, then sorts by row and sweeps. Passes repeat until one
  merges nothing.

Modules, one per source file or concern:

- `Wrappers`: `Option` and `Result`.
- `Colors`: `u8`, an RGB `Color`, and the channel selector.
- `Arith`: one monotonicity lemma for products.
- `Sorting`: a comparator-based sort with permutation and sortedness lemmas. It stands for `sort_unstable_by` and `select_nth_unstable_by_key`.
- `Rectangles` (rectangle.rs): `Rectangle::new` is the `Rect` constructor itself. `from_square`, `crop`, `split` and `merge` are functions.
- `MedianCut` (median_cut.rs): `ColorRange`, `Bucket`, `Quantizer` and `median_cut`.
- `QuadTree` (quadtree.rs): `Decomposition` and `decompose`.
- `Optimizer` (quadtree.rs): `optimize`.
- `Autopixel` (lib.rs):
  - `into_colors`;
  - the `pixelate` target size;
  - `quantize` with its count map;
  - the colour-order block;
  - the pipeline from the pixelated image to the rectangle lists.

The capstone is `Autopixel.Run`. It follows the image through every stage
and proves that painting the optimised lists in colour order reproduces
every requantized pixel. p5.rs fills the rectangles of each colour in that
order, so a later colour paints over an earlier one.

Behaviour of the source worth noting:

- `Bucket::split` hands the median element to neither half. `select_nth_unstable_by_key` returns `(left, median, right)` and the split keeps only `left` and `right`.
- Both optimisation sweeps call `merge`, which joins vertical and horizontal neighbours alike. Neither sweep is limited to one direction.
- A quad-tree square that lies off the canvas is still split down to unit size. `check_instruction` rejects it, and the `else if let Some(children)` branch runs for every rejected square.
- `median_cut` aims for `min(max(num_colors, 1), distinct colours)` leaves. The HashSet loop inserts one colour before it first compares.
- Equal-volume buckets leave the heap in an order the source does not fix.

## Model

| member | source | states |
|---|---|---|
| Rectangles.FromSquare | crates/autopixel/src/rectangle.rs:19-21 | the square holds exactly the cells within `size` of its corner along both axes |
| Rectangles.Crop | crates/autopixel/src/rectangle.rs:24-38 | None exactly when the corner lies off the canvas. Otherwise it keeps the corner, never grows, stays on the canvas, keeps a non-empty side non-empty, and its cells are exactly the rectangle's on-canvas cells |
| Rectangles.Split | crates/autopixel/src/rectangle.rs:40-55 | None exactly for a unit square. Otherwise there are four half-size power-of-two squares inside the parent, pairwise disjoint, which together cover exactly the parent's cells |
| Rectangles.Merge | crates/autopixel/src/rectangle.rs:57-100 | a result exactly when the two rectangles are stacked with a shared full edge. The result's cells are the union of the two, its area is the sum, and it spans the outer bounds of both |
| Rectangles.MergeSymmetric | crates/autopixel/src/rectangle.rs:58-100 | merging does not depend on which rectangle is the receiver |
| Rectangles.NoSelfMerge | crates/autopixel/src/rectangle.rs:58-100 | a non-empty rectangle never merges with itself |
| Rectangles.DisjointIffNoCommonCell | crates/autopixel/src/rectangle.rs:41-55 | for non-empty rectangles, separation along an axis is the same as sharing no cell |
| MedianCut.XorPlusTwiceAnd | crates/autopixel/src/median_cut.rs:68-72 | the xor of two numbers plus twice their and is their sum |
| MedianCut.MedianU8 | crates/autopixel/src/median_cut.rs:68-72 | the bit trick yields the floor of the mean of the bounds, so the u8 addition never overflows |
| MedianCut.FromColors | crates/autopixel/src/median_cut.rs:21-41 | no colours give the inverted box `255..=0`. Otherwise the box is well formed, contains every colour, and each of its six bounds is attained by some colour |
| MedianCut.FromColorsTightest | crates/autopixel/src/median_cut.rs:21-41 | the box of the colours lies inside every box that contains them all |
| MedianCut.FromColorsSubset | crates/autopixel/src/median_cut.rs:21-41 | the box of part of a bucket lies inside the box of the whole bucket |
| MedianCut.Contains | crates/autopixel/src/median_cut.rs:43-47 | a colour is in a box when each channel lies in that channel's inclusive range. No contract of its own; `ContainsSpaceContains` and `FromColors` state what it is used for |
| MedianCut.ContainsSpace | crates/autopixel/src/median_cut.rs:50-57 | one box reaches at least as far as another on all six bounds. No contract of its own; the reflexive, transitive and colour-transfer lemmas below are its partners |
| MedianCut.ContainsSpaceTransitive | crates/autopixel/src/median_cut.rs:50-57 | box containment is transitive |
| MedianCut.ContainsSpaceContains | crates/autopixel/src/median_cut.rs:43-57 | a colour inside an inner box is inside every box that contains that box |
| MedianCut.Range | crates/autopixel/src/median_cut.rs:59-65 | on a well-formed box, the volume is at most 255^3, so the u32 product never overflows. It is zero exactly when some channel holds a single value |
| MedianCut.RangeMonotone | crates/autopixel/src/median_cut.rs:59-65 | when a well-formed box lies inside another box, the outer box is well formed too and the inner box's volume is no larger than the outer one's |
| MedianCut.Median | crates/autopixel/src/median_cut.rs:67-79 | each channel is the floor of the mean of that channel's bounds, and on a well-formed box the median lies inside it |
| MedianCut.NewBucket | crates/autopixel/src/median_cut.rs:103-106 | the bucket keeps the colours it was given, its box contains every one of them, and the box is well formed when there is at least one colour |
| MedianCut.SplitAxis | crates/autopixel/src/median_cut.rs:120-126 | the chosen channel has the largest length. Green is chosen only when it is strictly longer than red, and blue only when it is strictly longer than both |
| MedianCut.SelectNth | crates/autopixel/src/median_cut.rs:121-125 | the result rearranges the bucket so that nothing before index `len/2` is larger on the axis and nothing after it is smaller |
| MedianCut.BucketSplit | crates/autopixel/src/median_cut.rs:112-129 | the left half has `len/2` colours and the right half `len - len/2 - 1`. The halves plus the dropped median are the bucket's colours. Left colours are no larger and right colours no smaller than the median on the split axis. Each half carries its own box, and both boxes lie inside the parent's |
| MedianCut.QuantizerNew | crates/autopixel/src/median_cut.rs:165-173 | a valid tree with a single leaf holding the given box |
| MedianCut.QuantizerSplit | crates/autopixel/src/median_cut.rs:175-206 | the two new leaves sit at indices `len` and `len + 1` and become the children of the node. No other node changes, the tree stays valid, and splitting a leaf adds exactly one leaf |
| MedianCut.Descend | crates/autopixel/src/median_cut.rs:210-222 | the walk stops at a node that comes no earlier, where neither child box holds the colour (or at a leaf). That node's box holds the colour unless the walk never moved, and it lies inside the starting box |
| MedianCut.DescendPrefersLeft | crates/autopixel/src/median_cut.rs:215-216 | when the left child's box holds the colour, the walk continues in the left child |
| MedianCut.DescendTakesRight | crates/autopixel/src/median_cut.rs:217-218 | when only the right child's box holds the colour, the walk continues in the right child |
| MedianCut.DescendStopsWhenNeither | crates/autopixel/src/median_cut.rs:211-220 | at a leaf, or at a node whose child boxes both miss the colour, the walk stops where it is |
| MedianCut.Quantize | crates/autopixel/src/median_cut.rs:208-224 | the palette colour is the median of a node where the walk from the root may stop. That box lies inside the root box and holds the colour unless it is the root. Which node the walk picks at each step is pinned by the three `Descend…` lemmas |
| MedianCut.QuantizeInRoot | crates/autopixel/src/median_cut.rs:208-224 | in a tree of well-formed boxes, every palette colour lies inside the root box |
| MedianCut.DistinctCount | crates/autopixel/src/median_cut.rs:252-259 | the target leaf count is the smaller of the number of distinct colours and `max(num_colors, 1)` |
| MedianCut.MaxRangeIndex | crates/autopixel/src/median_cut.rs:267 | the popped bucket has a volume no smaller than that of any other bucket in the heap |
| MedianCut.StartInv | crates/autopixel/src/median_cut.rs:262-264 | before the first round the one leaf is the box of all colours, the heap holds one bucket with every colour, and the round invariant holds: valid tree, one bucket per leaf, and the buckets' colours make up the input colours |
| MedianCut.HeapColorsStep | crates/autopixel/src/median_cut.rs:266-273 | popping a bucket and pushing its two halves keeps every colour but the dropped median: the heap's colours before are the colours after plus that median |
| MedianCut.NextStateInv | crates/autopixel/src/median_cut.rs:266-274 | a round that splits the largest-volume bucket of three or more colours keeps the round invariant, including that the buckets' colours plus one dropped median per round make up the input colours, and grows the heap by one |
| MedianCut.Grow | crates/autopixel/src/median_cut.rs:266-274 | the loop of `median_cut` from a given state: it ends either in a valid tree of well-formed boxes with exactly the target leaf count and twice as many nodes less one, keeping the root box, or in a state with fewer buckets than the target whose largest-volume bucket holds at most two colours |
| MedianCut.GrowOnce | crates/autopixel/src/median_cut.rs:266-274 | the round fails exactly when the popped bucket of largest volume holds at most two colours, so that a half is left without colours. A round that succeeds yields the next state of the rounds: the largest-volume bucket is split at its median, its node gets the halves' boxes as children at the arena's end, and the halves replace it in the heap. The round invariant holds afterwards and the heap grows by one |
| MedianCut.MedianCutTree | crates/autopixel/src/median_cut.rs:250-277 | succeeds exactly when the rounds from the start state, each splitting the first bucket of largest volume, reach the target leaf count, and then returns the tree they build: valid, with exactly the target number of leaves and twice as many nodes less one, rooted at the box of all colours, with every box well formed. A target of one leaf always succeeds. On failure the ghost results are the state those rounds reached, with fewer buckets than the target and a largest-volume bucket of at most two colours |
| QuadTree.Index | crates/autopixel/src/quadtree.rs:28-30 | the flat position of a cell, written row by row. No contract of its own; the three lemmas below state its closed form, bounds and injectivity |
| QuadTree.IndexRowMajor | crates/autopixel/src/quadtree.rs:28-30 | the position of cell (x, y) is `y * width + x` |
| QuadTree.IndexBounds | crates/autopixel/src/quadtree.rs:28-30 | every cell on the canvas has a position inside the buffer |
| QuadTree.IndexInjective | crates/autopixel/src/quadtree.rs:28-30 | two cells share a position exactly when they are the same cell |
| QuadTree.NewDecomposition | crates/autopixel/src/quadtree.rs:16-26 | a valid state at the origin that holds the given pixels, with no cell claimed |
| QuadTree.Claim | crates/autopixel/src/quadtree.rs:41 | setting one bit claims that cell and changes no other cell's claim |
| QuadTree.UpdateBitmap | crates/autopixel/src/quadtree.rs:32-43 | afterwards a cell is claimed exactly when it was claimed before or it lies in the rectangle and has the colour |
| QuadTree.AnyClaimedInRow | crates/autopixel/src/quadtree.rs:61 | true exactly when some cell of the row segment is claimed |
| QuadTree.AnyColorInRow | crates/autopixel/src/quadtree.rs:66 | true exactly when some cell of the row segment has the colour |
| QuadTree.CheckInstruction | crates/autopixel/src/quadtree.rs:48-72 | true exactly when the rectangle crops to something on the canvas, and that part has no claimed cell and at least one cell of the colour |
| QuadTree.NextPow2 | crates/autopixel/src/quadtree.rs:83 | the smallest power of two that is at least n |
| QuadTree.DecomposeColor | crates/autopixel/src/quadtree.rs:92-107 | the newly claimed cells are exactly the colour's cells under accepted rectangles, and every cell of the colour ends up claimed. Each accepted rectangle lies on the canvas, holds a cell of the colour and no earlier claim, and the accepted rectangles are pairwise disjoint |
| QuadTree.InstructionMap | crates/autopixel/src/quadtree.rs:89-106 | the map has a key for exactly the colours of the order |
| QuadTree.InstructionMapLast | crates/autopixel/src/quadtree.rs:89-106 | a colour's entry is the list of its last occurrence in the order |
| QuadTree.Decompose | crates/autopixel/src/quadtree.rs:79-110 | the first colour gets the whole canvas. Every later list is pairwise disjoint, lies on the canvas and holds its colour. A pixel covered by its own colour's list is covered by no later list. Every pixel whose colour is in the order is covered by a list of that colour |
| Optimizer.Sweep | crates/autopixel/src/quadtree.rs:124-132 | the sweep never yields more rectangles than it was given and keeps at least one |
| Optimizer.SweepArea | crates/autopixel/src/quadtree.rs:124-132 | a sweep keeps the total area |
| Optimizer.SweepCovered | crates/autopixel/src/quadtree.rs:124-132 | a sweep covers exactly the cells of its input |
| Optimizer.SweepNoMerge | crates/autopixel/src/quadtree.rs:124-132 | a sweep that merges nothing returns its input unchanged, and then no two neighbours in it can merge |
| Optimizer.SortAndSweepStable | crates/autopixel/src/quadtree.rs:121-143 | sorting and sweeping keeps the count exactly when the result is the sorted list with no mergeable neighbours |
| Optimizer.Pass | crates/autopixel/src/quadtree.rs:121-143 | one iteration of the loop never yields more rectangles than it was given and keeps at least one |
| Optimizer.PassFixpoint | crates/autopixel/src/quadtree.rs:120-147 | a pass that keeps the count returns a rearrangement of its input, sorted by row and then column, with no mergeable neighbours. Its column sweep also merged nothing: that intermediate list is a rearrangement of the input, sorted by column and then row, with no mergeable neighbours |
| Optimizer.PassKeeps | crates/autopixel/src/quadtree.rs:120-143 | a pass keeps the total area and the covered cells |
| Optimizer.TilingPermutation | crates/autopixel/src/quadtree.rs:122 | a rearrangement of non-empty, pairwise disjoint rectangles is again such a list |
| Optimizer.DisjointFromMerged | crates/autopixel/src/rectangle.rs:57-100 | a rectangle disjoint from both halves of a merge is disjoint from the merged rectangle, which is non-empty |
| Optimizer.MergedTiling | crates/autopixel/src/quadtree.rs:126-129 | replacing the two rectangles a merge joins by their union keeps the list non-empty and pairwise disjoint |
| Optimizer.SweepTiling | crates/autopixel/src/quadtree.rs:124-132 | a sweep over non-empty, pairwise disjoint rectangles yields such a list |
| Optimizer.SortAndSweepTiling | crates/autopixel/src/quadtree.rs:122-132 | sorting and sweeping such a list yields such a list |
| Optimizer.RowAdjacent | crates/autopixel/src/quadtree.rs:134 | in a disjoint list sorted by row and then column, a rectangle directly right of another on the same rows comes right after it |
| Optimizer.ColumnAdjacent | crates/autopixel/src/quadtree.rs:122 | in a disjoint list sorted by column and then row, a rectangle directly below another in the same columns comes right after it |
| Optimizer.NoHorizontalPair | crates/autopixel/src/quadtree.rs:134-143 | after a row sweep that merged nothing, no two rectangles of a disjoint list sit side by side |
| Optimizer.NoVerticalPair | crates/autopixel/src/quadtree.rs:122-132 | after a column sweep that merged nothing, no two rectangles of a disjoint list sit one above the other |
| Optimizer.FixpointIrreducible | crates/autopixel/src/quadtree.rs:120-147 | when a pass over a disjoint list merges nothing, no two rectangles of the result can be merged, neighbours in the list or not |
| Optimizer.PassTiling | crates/autopixel/src/quadtree.rs:120-147 | a pass keeps a list non-empty and pairwise disjoint, and when it merges nothing the result is irreducible |
| Optimizer.Optimize | crates/autopixel/src/quadtree.rs:113-149 | a single rectangle comes back unchanged. Otherwise the result has no more rectangles than the input and the same total area and covered cells, and ends sorted by row with no mergeable neighbours. On non-empty, pairwise disjoint input the result is again such a list and no two of its rectangles can be merged at all |
| Autopixel.IntoColors | crates/autopixel/src/lib.rs:80-86 | colour i is the triple at bytes 3i, 3i+1 and 3i+2 of the buffer |
| Autopixel.IntoColorsOfFlatten | crates/autopixel/src/lib.rs:80-86 | reading a flattened colour list gives back the list |
| Autopixel.FlattenOfIntoColors | crates/autopixel/src/lib.rs:80-86 | flattening the colours read from a buffer gives back the buffer |
| Autopixel.Quotient | crates/autopixel/src/lib.rs:91-92 | the u32 quotient is the largest number whose product with the divisor does not exceed the dividend |
| Autopixel.PixelateDims | crates/autopixel/src/lib.rs:88-95 | each target side is the largest number of whole `pixel_size as u32` blocks that fit in the source side |
| Autopixel.Requantize | crates/autopixel/src/lib.rs:97-114 | each pixel becomes its palette colour. The count map has a key for exactly the colours of the new image, each mapped to its number of occurrences |
| Autopixel.Tally | crates/autopixel/src/lib.rs:106-109 | the colour's count rises by one, or starts at one, and no other count changes |
| Autopixel.SumOfCounts | crates/autopixel/src/lib.rs:102-111 | the counts along a duplicate-free list of all the image's colours add up to the number of pixels |
| Autopixel.Keys | crates/autopixel/src/lib.rs:57 | each key of the map appears exactly once |
| Autopixel.ColorOrder | crates/autopixel/src/lib.rs:57-63 | each counted colour appears exactly once, and no colour has a lower count than a colour after it |
| Autopixel.ReverseDescends | crates/autopixel/src/lib.rs:58-62 | reversing a list sorted by ascending count orders it by descending count |
| Autopixel.Paint | crates/autopixel/src/p5.rs:15-28 | a cell gets a colour exactly when some layer covers it |
| Autopixel.PaintLastCover | crates/autopixel/src/p5.rs:15-28 | the last layer that covers a cell decides its colour |
| Autopixel.PaintSameCover | crates/autopixel/src/p5.rs:15-28 | layers covering the same cells paint the same picture |
| Autopixel.PaintsPixel | crates/autopixel/src/quadtree.rs:79-110 | drawing the decomposition's lists in colour order gives every pixel its own colour |
| Autopixel.OwnedLayerNonEmpty | crates/autopixel/src/quadtree.rs:113-124 | every colour of the image gets a non-empty list, so `optimize` never reads `instructions[0]` of an empty list |
| Autopixel.OptimizeAll | crates/autopixel/src/lib.rs:66 | every list is replaced by what `optimize` promises for it: at least one and at most as many rectangles, the same area and covered cells, row-sorted with no mergeable neighbours when there were two or more, and irreducible when the list was disjoint |
| Autopixel.ListsAreTilings | crates/autopixel/src/quadtree.rs:79-110 | every list of the decomposition is made of non-empty, pairwise disjoint rectangles |
| Autopixel.LayersOptimised | crates/autopixel/src/lib.rs:65-66 | after optimisation the first list is still the whole canvas and every list is disjoint and irreducible |
| Autopixel.Layout | crates/autopixel/src/lib.rs:65-66 | each colour's map entry is its optimised list, the lists are disjoint and irreducible with the whole canvas first, and drawing them in colour order reproduces every pixel |
| Autopixel.LayersDraw | crates/autopixel/src/lib.rs:65-66 | drawing the optimised lists in colour order reproduces every pixel of the image |
| Autopixel.Render | crates/autopixel/src/lib.rs:55-66 | for a valid palette, each pixel becomes its palette colour, the order lists each new colour once, most frequent first, each colour's entry is its optimised list, every list is an irreducible tiling with the whole canvas first, and drawing the lists in order reproduces the requantized image |
| Autopixel.Run | crates/autopixel/src/lib.rs:54-66 | succeeds exactly when the modelled `median_cut` does on the image's colours (rounds that split the first bucket of largest volume), and then the palette is the tree those rounds build, with the target leaf count, and each pixel becomes its palette colour. The order lists each of the new image's colours once, most frequent first. Each colour's entry is its optimised list. The first list is the whole canvas, every list is a set of disjoint rectangles no two of which can be merged, and drawing the lists in order reproduces the requantized image. A palette target of one leaf always succeeds. On failure the ghost results are the state of `median_cut` whose round failed, as for `MedianCutTree` |

## Left out

- Image decoding, `resize`, the `RgbImage` container, tracing spans and the HTTP services are not modelled. `Run` starts from the pixelated image's raw buffer and its width and height.
- The p5 program text is not modelled. The stroke, canvas and background lines are left out, as is the multiplication of every coordinate by `scale`. `Paint` models only which colour the `fill` and `rect` calls leave on each cell.
- Machine integers are unbounded naturals. Where the source can wrap or panic, the model states it explicitly:
  - `pixel_size as u32` truncates;
  - `range()` underflows on an inverted box, which panics in an overflow-checked build (see `MedianCut.GrowOnce` below);
  - `2 * num_colors - 1` underflows for no colours;
  - `u32::next_power_of_two` in `decompose` (`QuadTree.NextPow2`) overflows when the larger side exceeds 2^31; the model's power of two is unbounded.
  Coordinate arithmetic in `usize` is assumed not to overflow.
- Autopixel.Run: requires a non-empty image. An empty image gives `median_cut` no colours, and `Quantizer::new(…, 0)` then underflows. `decompose` also reads `color_order[0]` and crops the canvas to itself.
- MedianCut.MaxRangeIndex: picks the first bucket of largest volume. The tie-break of `BinaryHeap` is not modelled. The index is a maximal-volume one, but the rounds built on it (`Grow`, `Palette`) always take this first one, which need not be the bucket `BinaryHeap::pop` returns.
- MedianCut.MedianCutTree: the rounds always split the first of the tied largest-volume buckets. On tied volumes, the tree and whether the run fails may differ from the source's, which pops by `BinaryHeap`'s sift order. For example, take 13 colours (i, 0, 0), i = 0..12, with `num_colors` 6. Every volume is 0 because the green and blue ranges are single values. The model's fifth round pops a two-colour bucket and fails, where the source's heap order pops a three-colour bucket and returns six leaves. The contract promises the result of the first-max rounds, not of the source's heap order.
- Autopixel.Run: its palette and its Ok/Err outcome are those of the first-max rounds described under `MedianCut.MedianCutTree`. On tied bucket volumes they may differ from the source's, as in that example.
- MedianCut.SelectNth: sorts by the channel. The exact arrangement `select_nth_unstable_by_key` produces is not modelled. Every contract above it depends only on the partition property the standard library promises.
- MedianCut.GrowOnce: returns `Err(EmptyBucket)` where the source panics in an overflow-checked (debug) build. This happens when a split leaves a half without colours, which a bucket of one or two colours does. The heap comparison then calls `range()` on `255..=0`, and `0u8 - 255` panics. The model follows overflow-checked semantics only. In a release build the subtraction wraps to 1, nothing panics, and the round pushes a bucket whose box is the inverted `255..=0`; `median_cut` can then return a tree with such a leaf (for example a 2×1 image of two colours with `num_colors` of 2 or more). Such a tree is not modelled.
- Autopixel.Run: fails where `median_cut` panics in an overflow-checked build, for the reason given under `MedianCut.GrowOnce`; the release-build result with an inverted leaf is not modelled.
- Autopixel.Keys: `HashMap` iteration order is left open. Any duplicate-free listing of the keys is accepted.
- Autopixel.ColorOrder: the order among colours with equal counts is left open, as `sort_unstable_by_key` leaves it.
- `Decomposition::crop` is `Rectangles.Crop` applied to the canvas rectangle, so it has no member of its own.
- The `HashMap` built by `decompose` is a Dafny `map` built in insertion order (`QuadTree.InstructionMap`).
- Optimizer.Optimize: the `next` vector reused across passes is modelled as a fresh sequence per pass.
- Optimizer.Optimize: `SortBy` is a stable insertion sort standing in for `sort_unstable_by` (`crates/autopixel/src/quadtree.rs` lines 122 and 134). Rectangles with equal (x, y) keys may come out in another order than the source's. That cannot happen on a tiling, whose non-empty rectangles have distinct corners, and the contract does not depend on it.
- The source's `Vec::with_capacity` reservations have no observable effect and are not modelled.

=== FILE: arith.dfy ===
/** Small facts about products of naturals used by the other modules. */
module Arith {

  /** Multiplication of naturals is monotone in both factors. */
  lemma MulMonotone(a: nat, b: nat, c: nat, d: nat)
    requires a <= c && b <= d
    ensures a * b <= c * d
  {
    assert a * b <= c * b;
    assert c * b <= c * d;
  }
}

=== FILE: autopixel.dfy ===
/**
  * The pipeline of crates/autopixel/src/lib.rs: unpack the pixelated image
  * into colours, build a median-cut palette, requantize every pixel while
  * counting colours, order the colours by descending count, decompose the
  * image into one rectangle list per colour and optimise each list. The
  * p5.js program draws the lists in colour order, each rectangle filled with
  * its colour, so that later colours paint over earlier ones.
  */
module Autopixel {
  import opened Wrappers
  import opened Colors
  import opened Rectangles
  import opened Sorting
  import Arith
  import MedianCut
  import QuadTree
  import Optimizer

  /** `u32`, the type of an `RgbImage`'s width and height. */
  type u32 = x: int | 0 <= x < 0x1_0000_0000

  // ---------------------------------------------------------------------
  // into_colors
  // ---------------------------------------------------------------------

  /**
    * `into_colors`: the raw RGB buffer cut into triples. An `RgbImage`
    * buffer always holds whole triples; a trailing partial chunk would make
    * `chunk[1]` panic.
    */
  function IntoColors(raw: seq<u8>): (colors: seq<Color>)
    requires |raw| % 3 == 0
    ensures |colors| == |raw| / 3
    ensures forall i :: 0 <= i < |colors| ==> colors[i] == Color(raw[3 * i], raw[3 * i + 1], raw[3 * i + 2])
    decreases |raw|
  {
    if |raw| == 0 then []
    else
      var rest := IntoColors(raw[3..]);
      assert forall i :: 1 <= i < |rest| + 1 ==> raw[3..][3 * (i - 1)] == raw[3 * i];
      [Color(raw[0], raw[1], raw[2])] + rest
  }

  /** The raw buffer of a list of colours, three channels per pixel. */
  function FlattenColors(colors: seq<Color>): (raw: seq<u8>)
    ensures |raw| == 3 * |colors|
  {
    if |colors| == 0 then [] else [colors[0].r, colors[0].g, colors[0].b] + FlattenColors(colors[1..])
  }

  lemma {:induction false} IntoColorsOfFlatten(colors: seq<Color>)
    ensures IntoColors(FlattenColors(colors)) == colors
  {
    if |colors| > 0 {
      var raw := FlattenColors(colors);
      assert raw[3..] == FlattenColors(colors[1..]);
      IntoColorsOfFlatten(colors[1..]);
    }
  }

  lemma {:induction false} FlattenOfIntoColors(raw: seq<u8>)
    requires |raw| % 3 == 0
    ensures FlattenColors(IntoColors(raw)) == raw
    decreases |raw|
  {
    if |raw| > 0 {
      var colors := IntoColors(raw);
      assert colors[1..] == IntoColors(raw[3..]);
      FlattenOfIntoColors(raw[3..]);
      assert raw == raw[..3] + raw[3..];
    }
  }

  // ---------------------------------------------------------------------
  // pixelate
  // ---------------------------------------------------------------------

  /** `n as u32`: the low 32 bits of a `usize`. */
  function AsU32(n: nat): u32 {
    n % 0x1_0000_0000
  }

  /** `q` is `n / d` rounded down: the largest `q` with `q * d <= n`. */
  predicate FloorQuotient(q: nat, n: nat, d: nat) {
    q * d <= n < (q + 1) * d
  }

  /**
    * The target size of `pixelate`: `width / pixel_size as u32` and
    * `height / pixel_size as u32`. A zero divisor panics.
    */
  function PixelateDims(width: u32, height: u32, pixelSize: nat): (dims: (u32, u32))
    requires AsU32(pixelSize) != 0
    ensures FloorQuotient(dims.0, width, AsU32(pixelSize))
    ensures FloorQuotient(dims.1, height, AsU32(pixelSize))
  {
    (Quotient(width, AsU32(pixelSize)), Quotient(height, AsU32(pixelSize)))
  }

  /** `u32` division, which rounds down and never exceeds the dividend. */
  function Quotient(n: u32, d: nat): (q: u32)
    requires d >= 1
    ensures FloorQuotient(q, n, d) && q <= n
  {
    Arith.MulMonotone(n / d, 1, n / d, d);
    assert n == (n / d) * d + n % d;
    assert (n / d + 1) * d == (n / d) * d + d;
    n / d
  }

  // ---------------------------------------------------------------------
  // quantize
  // ---------------------------------------------------------------------

  /**
    * `quantize` after the palette is built: every pixel is replaced by its
    * palette colour and the occurrences of each palette colour are counted.
    * The count map holds exactly the colours of the new image, each with its
    * number of occurrences, so every count is at least 1.
    */
  method Requantize(palette: MedianCut.Quantizer, pixels: seq<Color>) returns (out: seq<Color>, counts: map<Color, nat>)
    requires MedianCut.ValidTree(palette)
    ensures |out| == |pixels|
    ensures forall i :: 0 <= i < |pixels| ==> out[i] == MedianCut.Quantize(palette, pixels[i])
    ensures forall c :: c in counts <==> c in out
    ensures forall c :: c in counts ==> counts[c] == multiset(out)[c] && counts[c] >= 1
  {
    out := [];
    counts := map[];
    var i := 0;
    while i < |pixels|
      invariant 0 <= i <= |pixels| && |out| == i
      invariant QuantizedPrefix(palette, pixels, out)
      invariant Tallies(counts, out)
    {
      var quantized := MedianCut.Quantize(palette, pixels[i]);
      TalliesAppend(counts, out, quantized);
      QuantizedExtend(palette, pixels, out);
      counts := Tally(counts, quantized);
      out := out + [quantized];
      i := i + 1;
    }
  }

  /** `out` is the requantized start of `pixels`. */
  ghost predicate QuantizedPrefix(palette: MedianCut.Quantizer, pixels: seq<Color>, out: seq<Color>)
    requires MedianCut.ValidTree(palette)
  {
    |out| <= |pixels| && forall k :: 0 <= k < |out| ==> out[k] == MedianCut.Quantize(palette, pixels[k])
  }

  lemma QuantizedExtend(palette: MedianCut.Quantizer, pixels: seq<Color>, out: seq<Color>)
    requires MedianCut.ValidTree(palette)
    requires QuantizedPrefix(palette, pixels, out) && |out| < |pixels|
    ensures QuantizedPrefix(palette, pixels, out + [MedianCut.Quantize(palette, pixels[|out|])])
  {
    var out' := out + [MedianCut.Quantize(palette, pixels[|out|])];
    forall k | 0 <= k < |out'| ensures out'[k] == MedianCut.Quantize(palette, pixels[k]) {
      if k < |out| {
        assert out'[k] == out[k];
      }
    }
  }

  /** `counts` holds exactly the colours of `s`, each with its number of occurrences. */
  ghost predicate Tallies(counts: map<Color, nat>, s: seq<Color>) {
    && (forall c :: c in counts <==> c in s)
    && (forall c :: c in counts ==> counts[c] == multiset(s)[c])
  }

  /** One step of the count loop: the entry of `c` goes up by one, or starts at 1. */
  function Tally(counts: map<Color, nat>, c: Color): (t: map<Color, nat>)
    ensures forall k :: k in t <==> k in counts || k == c
    ensures t[c] == (if c in counts then counts[c] else 0) + 1
    ensures forall k :: k in counts && k != c ==> t[k] == counts[k]
  {
    if c in counts then counts[c := counts[c] + 1] else counts[c := 1]
  }

  lemma TalliesAppend(counts: map<Color, nat>, s: seq<Color>, c: Color)
    requires Tallies(counts, s)
    ensures Tallies(Tally(counts, c), s + [c])
  {
    assert multiset(s + [c]) == multiset(s) + multiset{c};
    forall k ensures k in s + [c] <==> k in s || k == c {
      assert k in s ==> k in s + [c] by {
        if k in s {
          var i :| 0 <= i < |s| && s[i] == k;
          assert (s + [c])[i] == k;
        }
      }
      assert (s + [c])[|s|] == c;
    }
  }

  /** `Σ m[order[k]]`: the counts of the colours of `order`, added up. */
  function SumAlong(order: seq<Color>, m: multiset<Color>): nat
    decreases |order|
  {
    if |order| == 0 then 0 else m[order[0]] + SumAlong(order[1..], m)
  }

  lemma {:induction false} SumAlongAdd(order: seq<Color>, m: multiset<Color>, x: Color)
    ensures SumAlong(order, m + multiset{x}) == SumAlong(order, m) + multiset(order)[x]
    decreases |order|
  {
    if |order| > 0 {
      SumAlongAdd(order[1..], m, x);
      assert order == [order[0]] + order[1..];
    }
  }

  /**
    * Counting every colour of a duplicate-free enumeration that includes all
    * colours of `s` accounts for every element of `s` exactly once.
    */
  lemma {:induction false} SumOfCounts(order: seq<Color>, s: seq<Color>)
    requires NoDuplicates(order)
    requires forall c :: c in s ==> c in order
    ensures SumAlong(order, multiset(s)) == |s|
    decreases |s|
  {
    if |s| > 0 {
      var n := |s| - 1;
      assert s == s[..n] + [s[n]];
      SumOfCounts(order, s[..n]);
      SumAlongAdd(order, multiset(s[..n]), s[n]);
      NoDuplicatesOnce(order, s[n]);
      assert s[n] in s && s[n] in order;
      assert s[n] in multiset(order);
      assert multiset(s) == multiset(s[..n]) + multiset{s[n]};
      assert multiset(order)[s[n]] == 1;
      assert SumAlong(order, multiset(s[..n])) == n;
    } else {
      SumAlongEmpty(order);
    }
  }

  lemma {:induction false} SumAlongEmpty(order: seq<Color>)
    ensures SumAlong(order, multiset{}) == 0
    decreases |order|
  {
    if |order| > 0 {
      SumAlongEmpty(order[1..]);
    }
  }

  // ---------------------------------------------------------------------
  // Colour order
  // ---------------------------------------------------------------------

  /**
    * The keys of `counts` in some order: `HashMap::into_iter` visits each
    * entry once, in an order the model leaves open.
    */
  method Keys(counts: map<Color, nat>) returns (keys: seq<Color>)
    ensures NoDuplicates(keys)
    ensures forall c :: c in keys <==> c in counts
  {
    keys := [];
    var remaining := counts.Keys;
    while remaining != {}
      invariant remaining <= counts.Keys
      invariant NoDuplicates(keys)
      invariant forall c :: c in keys ==> c in counts && c !in remaining
      invariant forall c :: c in counts ==> c in remaining || c in keys
      decreases |remaining|
    {
      var c :| c in remaining;
      keys := keys + [c];
      remaining := remaining - {c};
    }
  }

  /** The count of `c`, or 0 when it is not a key. */
  function CountOf(counts: map<Color, nat>, c: Color): nat {
    if c in counts then counts[c] else 0
  }

  /** Compares colours by their count, as `sort_unstable_by_key(|&(_, count)| count)` does. */
  function ByCount(counts: map<Color, nat>): (Color, Color) -> bool {
    (a, b) => CountOf(counts, a) <= CountOf(counts, b)
  }

  lemma ByCountTotal(counts: map<Color, nat>)
    ensures TotalPreorder(ByCount(counts))
  {
  }

  /**
    * The colour-ordering block of `autopixel`: the entries sorted by count
    * with `sort_unstable_by_key`, reversed, and stripped of their counts.
    * Sorting the entries by count and then dropping the counts is the same
    * as sorting the colours by their count. The result lists every key once,
    * most frequent first; the order among equal counts is left open.
    */
  method ColorOrder(counts: map<Color, nat>) returns (order: seq<Color>)
    ensures NoDuplicates(order)
    ensures forall c :: c in order <==> c in counts
    ensures forall i, j :: 0 <= i < j < |order| ==> counts[order[i]] >= counts[order[j]]
  {
    var keys := Keys(counts);
    ByCountTotal(counts);
    var ascending := SortBy(keys, ByCount(counts));
    order := Reverse(ascending);
    ReversePermutes(ascending);
    NoDuplicatesPermutation(keys, order);
    SameElements(keys, order);
    ReverseDescends(counts, ascending);
  }

  /** Sequences with the same multiset hold the same elements. */
  lemma SameElements(a: seq<Color>, b: seq<Color>)
    requires multiset(a) == multiset(b)
    ensures forall c :: c in a <==> c in b
  {
    forall c ensures c in a <==> c in b {
      assert c in a <==> c in multiset(a);
      assert c in b <==> c in multiset(b);
    }
  }

  /** Reversing a list sorted by ascending count lists it by descending count. */
  lemma ReverseDescends(counts: map<Color, nat>, ascending: seq<Color>)
    requires SortedBy(ascending, ByCount(counts))
    ensures forall i, j :: 0 <= i < j < |ascending| ==>
      CountOf(counts, Reverse(ascending)[i]) >= CountOf(counts, Reverse(ascending)[j])
  {
    var n := |ascending|;
    forall i, j | 0 <= i < j < n
      ensures CountOf(counts, Reverse(ascending)[i]) >= CountOf(counts, Reverse(ascending)[j])
    {
      assert ByCount(counts)(ascending[n - 1 - j], ascending[n - 1 - i]);
    }
  }

  // ---------------------------------------------------------------------
  // Drawing
  // ---------------------------------------------------------------------

  /**
    * The colour the emitted program leaves on cell (x, y): it fills every
    * rectangle of `layers[k]` with `order[k]`, for k in turn, so the last
    * layer covering the cell wins. None when no layer covers it.
    */
  function Paint(order: seq<Color>, layers: seq<seq<Rect>>, x: int, y: int): (c: Option<Color>)
    requires |layers| == |order|
    ensures c.Some? <==> exists k :: 0 <= k < |layers| && Covered(layers[k], x, y)
    decreases |order|
  {
    var n := |order|;
    if n == 0 then None
    else if Covered(layers[n - 1], x, y) then Some(order[n - 1])
    else
      var below := Paint(order[..n - 1], layers[..n - 1], x, y);
      assert forall k :: 0 <= k < n - 1 ==> layers[..n - 1][k] == layers[k];
      below
  }

  /** The last layer covering a cell decides its colour. */
  lemma {:induction false} PaintLastCover(order: seq<Color>, layers: seq<seq<Rect>>, x: int, y: int, k: nat)
    requires |layers| == |order| && k < |layers|
    requires Covered(layers[k], x, y)
    requires forall k' :: k < k' < |layers| ==> !Covered(layers[k'], x, y)
    ensures Paint(order, layers, x, y) == Some(order[k])
    decreases |order|
  {
    var n := |order|;
    if k < n - 1 {
      assert !Covered(layers[n - 1], x, y);
      assert forall k' :: 0 <= k' < n - 1 ==> layers[..n - 1][k'] == layers[k'];
      PaintLastCover(order[..n - 1], layers[..n - 1], x, y, k);
    }
  }

  /** Layers that cover the same cells paint the same picture. */
  lemma {:induction false} PaintSameCover(order: seq<Color>, a: seq<seq<Rect>>, b: seq<seq<Rect>>, x: int, y: int)
    requires |a| == |order| && |b| == |order|
    requires forall k :: 0 <= k < |order| ==> (Covered(a[k], x, y) <==> Covered(b[k], x, y))
    ensures Paint(order, a, x, y) == Paint(order, b, x, y)
    decreases |order|
  {
    var n := |order|;
    if n > 0 && !Covered(a[n - 1], x, y) {
      assert forall k :: 0 <= k < n - 1 ==> a[..n - 1][k] == a[k] && b[..n - 1][k] == b[k];
      PaintSameCover(order[..n - 1], a[..n - 1], b[..n - 1], x, y);
    }
  }

  /** The cell of a position in a row-major buffer. */
  lemma {:induction false} CellOf(width: nat, height: nat, i: nat) returns (x: nat, y: nat)
    requires width >= 1 && height >= 1 && i < width * height
    ensures x < width && y < height && QuadTree.Index(width, x, y) == i
    decreases i
  {
    if i < width {
      x, y := i, 0;
    } else {
      assert width * height == width * (height - 1) + width;
      var above;
      x, above := CellOf(width, height - 1, i - width);
      y := above + 1;
    }
  }

  // ---------------------------------------------------------------------
  // autopixel
  // ---------------------------------------------------------------------

  /** What `autopixel` hands to the p5 emitter. */
  datatype Output = Output(
    palette: MedianCut.Quantizer,
    pixels: seq<Color>,
    order: seq<Color>,
    layers: seq<seq<Rect>>,
    instructions: map<Color, seq<Rect>>)

  /**
    * `autopixel` from the pixelated image on: `raw` is its RGB buffer,
    * `width` x `height` pixels. It fails where `median_cut` aborts, and the
    * ghost results then show the state whose round failed. On success the
    * palette is the tree the rounds of `median_cut` build on the image's
    * colours, the requantized pixels are the palette's colours for the input
    * pixels, the colour order lists each of their colours once, most
    * frequent first, the first colour's list is the whole canvas, every
    * colour's list is a tiling in which no two rectangles can be merged, and drawing
    * the lists in colour order reproduces every requantized pixel. The
    * source needs a non-empty image: `decompose` reads `color_order[0]`.
    */
  method Run(width: nat, height: nat, raw: seq<u8>, numColors: nat)
    returns (res: Result<Output, MedianCut.CutError>, ghost stuckTree: MedianCut.Quantizer, ghost stuckHeap: seq<MedianCut.HeapItem>)
    requires width >= 1 && height >= 1 && |raw| == 3 * (width * height)
    ensures res.Ok? ==>
      && MedianCut.BuiltPalette(res.value.palette, IntoColors(raw), numColors)
      && Rendered(width, height, IntoColors(raw), res.value)
    ensures MedianCut.Min(|MedianCut.Distinct(IntoColors(raw))|, MedianCut.Max(numColors, 1)) == 1 ==> res.Ok?
    ensures res.Ok? <==> MedianCut.Palette(IntoColors(raw), numColors).Ok?
    ensures res.Err? ==> MedianCut.FailedAt(stuckTree, stuckHeap, IntoColors(raw), numColors)
  {
    var cells := width * height;
    assert |raw| % 3 == 0 && |raw| / 3 == cells;
    var colors := IntoColors(raw);
    Arith.MulMonotone(1, 1, width, height);
    assert |colors| == cells >= 1;
    var tree;
    tree, stuckTree, stuckHeap := MedianCut.MedianCutTree(colors, numColors);
    if tree.Err? {
      res := Err(tree.error);
      return;
    }
    var o := Render(width, height, tree.value, colors);
    res := Ok(o);
  }

  /**
    * What `autopixel` promises about its output past the palette: each pixel
    * becomes its palette colour, the colour order lists each new colour once,
    * most frequent first, each colour's entry is its optimised layer, and
    * drawing the layers in order reproduces the requantized image.
    */
  ghost predicate Rendered(width: nat, height: nat, colors: seq<Color>, o: Output)
    requires |colors| == width * height && MedianCut.ValidTree(o.palette)
  {
    && |o.pixels| == width * height
    && (forall i :: 0 <= i < |o.pixels| ==> o.pixels[i] == MedianCut.Quantize(o.palette, colors[i]))
    && NoDuplicates(o.order)
    && (forall c :: c in o.order <==> c in o.pixels)
    && (forall i, j :: 0 <= i < j < |o.order| ==> multiset(o.pixels)[o.order[i]] >= multiset(o.pixels)[o.order[j]])
    && |o.layers| == |o.order|
    && OptimisedLayers(width, height, o.layers)
    && (forall k :: 0 <= k < |o.order| ==> o.order[k] in o.instructions && o.instructions[o.order[k]] == o.layers[k])
    && (forall c :: c in o.instructions <==> c in o.order)
    && Draws(width, height, o.pixels, o.order, o.layers)
  }

  /**
    * `autopixel` once the palette is built: requantize the pixels, order
    * their colours by descending count, then decompose and optimise.
    */
  method Render(width: nat, height: nat, palette: MedianCut.Quantizer, colors: seq<Color>) returns (o: Output)
    requires width >= 1 && height >= 1 && |colors| == width * height
    requires MedianCut.ValidTree(palette)
    ensures o.palette == palette
    ensures Rendered(width, height, colors, o)
  {
    var pixels, counts := Requantize(palette, colors);
    var order := ColorOrder(counts);
    assert |order| >= 1 by {
      assert pixels[0] in order;
    }
    var layers, instructions := Layout(width, height, pixels, order);
    o := Output(palette, pixels, order, layers, instructions);
  }

  /**
    * The drawing half of `autopixel`: decompose the requantized image into
    * one rectangle list per colour, optimise every list and key the lists
    * by their colour.
    */
  method Layout(width: nat, height: nat, pixels: seq<Color>, order: seq<Color>)
    returns (layers: seq<seq<Rect>>, instructions: map<Color, seq<Rect>>)
    requires width >= 1 && height >= 1 && |pixels| == width * height
    requires NoDuplicates(order) && |order| >= 1
    requires forall c :: c in order <==> c in pixels
    ensures |layers| == |order|
    ensures forall k :: 0 <= k < |order| ==> order[k] in instructions && instructions[order[k]] == layers[k]
    ensures forall c :: c in instructions <==> c in order
    ensures OptimisedLayers(width, height, layers)
    ensures Draws(width, height, pixels, order, layers)
  {
    var lists, _ := QuadTree.Decompose(width, height, pixels, order);
    layers := OptimizeAll(width, height, pixels, order, lists);
    LayersOptimised(width, height, pixels, order, lists, layers);
    instructions := QuadTree.InstructionMap(order, layers);
    InstructionsOfDistinct(order, layers);
    LayersDraw(width, height, pixels, order, lists, layers);
  }

  /** Every cell of the canvas is painted with its pixel's colour. */
  ghost predicate Draws(width: nat, height: nat, pixels: seq<Color>, order: seq<Color>, layers: seq<seq<Rect>>)
    requires |pixels| == width * height && |layers| == |order|
  {
    forall x: nat, y: nat :: x < width && y < height ==>
      Paint(order, layers, x, y) == Some(QuadTree.Pixel(pixels, width, height, x, y))
  }

  /** With no repeated colour, the map holds each colour's own list. */
  lemma InstructionsOfDistinct(order: seq<Color>, lists: seq<seq<Rect>>)
    requires NoDuplicates(order) && |lists| == |order|
    ensures forall k :: 0 <= k < |order| ==>
      order[k] in QuadTree.InstructionMap(order, lists) && QuadTree.InstructionMap(order, lists)[order[k]] == lists[k]
  {
    forall k | 0 <= k < |order|
      ensures order[k] in QuadTree.InstructionMap(order, lists) && QuadTree.InstructionMap(order, lists)[order[k]] == lists[k]
    {
      QuadTree.InstructionMapLast(order, lists, k);
    }
  }

  /**
    * Drawing the optimised lists reproduces the image: the decomposition's
    * lists do, and optimisation leaves every list covering the same cells.
    */
  lemma LayersDraw(width: nat, height: nat, pixels: seq<Color>, order: seq<Color>, lists: seq<seq<Rect>>, layers: seq<seq<Rect>>)
    requires width >= 1 && height >= 1 && |pixels| == width * height
    requires NoDuplicates(order) && |lists| == |order| && |layers| == |order|
    requires forall c :: c in pixels ==> c in order
    requires QuadTree.NotOverpainted(width, height, pixels, order, lists)
    requires QuadTree.OwnColorCovers(width, height, pixels, order, lists)
    requires forall k, x, y :: 0 <= k < |lists| ==> (Covered(layers[k], x, y) <==> Covered(lists[k], x, y))
    ensures Draws(width, height, pixels, order, layers)
  {
    forall x: nat, y: nat | x < width && y < height
      ensures Paint(order, layers, x, y) == Some(QuadTree.Pixel(pixels, width, height, x, y))
    {
      PaintsPixel(width, height, pixels, order, lists, x, y);
      PaintSameCover(order, lists, layers, x, y);
    }
  }

  /**
    * The loop `instructions.iter_mut().for_each(|(_color, v)| optimize(v))`:
    * every list is replaced by what `optimize` makes of it. Every list it
    * meets is non-empty: each colour of a duplicate-free order built from
    * the image's own colours owns at least one pixel, and `decompose` covers
    * that pixel with a rectangle of its colour.
    */
  method OptimizeAll(width: nat, height: nat, pixels: seq<Color>, order: seq<Color>, lists: seq<seq<Rect>>)
    returns (layers: seq<seq<Rect>>)
    requires width >= 1 && height >= 1 && |pixels| == width * height
    requires NoDuplicates(order) && |lists| == |order|
    requires forall c :: c in order ==> c in pixels
    requires QuadTree.OwnColorCovers(width, height, pixels, order, lists)
    ensures |layers| == |lists|
    ensures forall k, x, y :: 0 <= k < |lists| ==> (Covered(layers[k], x, y) <==> Covered(lists[k], x, y))
    ensures forall k :: 0 <= k < |lists| ==> Optimizer.OptimizedFrom(lists[k], layers[k])
  {
    layers := [];
    var k := 0;
    while k < |lists|
      invariant 0 <= k <= |lists| && |layers| == k
      invariant forall k', x, y :: 0 <= k' < k ==> (Covered(layers[k'], x, y) <==> Covered(lists[k'], x, y))
      invariant forall k' :: 0 <= k' < k ==> Optimizer.OptimizedFrom(lists[k'], layers[k'])
    {
      OwnedLayerNonEmpty(width, height, pixels, order, lists, k);
      var optimized := Optimizer.Optimize(lists[k]);
      assert Optimizer.OptimizedFrom(lists[k], optimized);
      layers := layers + [optimized];
      k := k + 1;
    }
  }

  /**
    * The shape of the optimised lists: the first is still the whole canvas,
    * and each is a tiling in which no two rectangles can be merged.
    */
  ghost predicate OptimisedLayers(width: nat, height: nat, layers: seq<seq<Rect>>) {
    && |layers| >= 1
    && layers[0] == [Rect(0, 0, width, height)]
    && forall k :: 0 <= k < |layers| ==> Tiling(layers[k]) && Optimizer.Irreducible(layers[k])
  }

  /**
    * Every list `decompose` produces is a tiling: the first is the whole
    * canvas, and the later ones are built from disjoint non-empty squares.
    */
  lemma ListsAreTilings(width: nat, height: nat, pixels: seq<Color>, order: seq<Color>, lists: seq<seq<Rect>>)
    requires width >= 1 && height >= 1 && |pixels| == width * height
    requires |lists| == |order| >= 1 && lists[0] == [Rect(0, 0, width, height)]
    requires QuadTree.LaterListsFit(width, height, pixels, order, lists)
    ensures forall k :: 0 <= k < |lists| ==> Tiling(lists[k])
  {
    forall k | 0 <= k < |lists| ensures Tiling(lists[k]) {
      if k == 0 {
        assert AllSolid(lists[0]);
      }
    }
  }

  /** Optimising the decomposition's lists one by one leaves optimised layers. */
  lemma LayersOptimised(width: nat, height: nat, pixels: seq<Color>, order: seq<Color>,
                        lists: seq<seq<Rect>>, layers: seq<seq<Rect>>)
    requires width >= 1 && height >= 1 && |pixels| == width * height
    requires |lists| == |order| >= 1 && |layers| == |lists| && lists[0] == [Rect(0, 0, width, height)]
    requires QuadTree.LaterListsFit(width, height, pixels, order, lists)
    requires forall k :: 0 <= k < |lists| ==> Optimizer.OptimizedFrom(lists[k], layers[k])
    ensures OptimisedLayers(width, height, layers)
  {
    ListsAreTilings(width, height, pixels, order, lists);
    assert Optimizer.OptimizedFrom(lists[0], layers[0]);
  }

  lemma OwnedLayerNonEmpty(width: nat, height: nat, pixels: seq<Color>, order: seq<Color>, lists: seq<seq<Rect>>, k: nat)
    requires width >= 1 && height >= 1 && |pixels| == width * height
    requires NoDuplicates(order) && |lists| == |order| && k < |order|
    requires forall c :: c in order ==> c in pixels
    requires QuadTree.OwnColorCovers(width, height, pixels, order, lists)
    ensures |lists[k]| >= 1
  {
    assert order[k] in pixels;
    var i :| 0 <= i < |pixels| && pixels[i] == order[k];
    var x, y := CellOf(width, height, i);
    assert QuadTree.Pixel(pixels, width, height, x, y) == order[k];
    var j' :| 0 <= j' < |order| && order[j'] == order[k] && Covered(lists[j'], x, y);
    assert j' == k;
  }

  /** Drawing the decomposition's lists in colour order reproduces the pixel. */
  lemma PaintsPixel(width: nat, height: nat, pixels: seq<Color>, order: seq<Color>, lists: seq<seq<Rect>>, x: nat, y: nat)
    requires width >= 1 && height >= 1 && |pixels| == width * height
    requires x < width && y < height
    requires NoDuplicates(order) && |lists| == |order|
    requires forall c :: c in pixels ==> c in order
    requires QuadTree.NotOverpainted(width, height, pixels, order, lists)
    requires QuadTree.OwnColorCovers(width, height, pixels, order, lists)
    ensures Paint(order, lists, x, y) == Some(QuadTree.Pixel(pixels, width, height, x, y))
  {
    var p := QuadTree.Pixel(pixels, width, height, x, y);
    QuadTree.PixelInBuffer(pixels, width, height, x, y);
    var j' :| 0 <= j' < |order| && order[j'] == p && Covered(lists[j'], x, y);
    assert forall k :: j' < k < |lists| ==> !Covered(lists[k], x, y);
    PaintLastCover(order, lists, x, y, j');
  }
}

=== FILE: colors.dfy ===
/** Pixel colours: `Color = Rgb<u8>` of crates/autopixel/src/lib.rs. */
module Colors {

  /** An unsigned 8-bit channel value. */
  type u8 = x: int | 0 <= x < 256

  /** A red/green/blue byte triple; equality is exact channel equality. */
  datatype Color = Color(r: u8, g: u8, b: u8)

  /** The three channels, in the order `color[0]`, `color[1]`, `color[2]`. */
  datatype Axis = Red | Green | Blue

  /** `color[i]` for the channel `axis`. */
  function Channel(c: Color, axis: Axis): u8 {
    match axis
    case Red => c.r
    case Green => c.g
    case Blue => c.b
  }
}

=== FILE: median_cut.dfy ===
/**
  * The median-cut palette builder (crates/autopixel/src/median_cut.rs):
  * RGB bounding boxes, the median split of a bucket of colours, the
  * append-only binary tree of boxes that serves as the palette, and the loop
  * that grows the tree by always splitting the bucket of largest volume.
  */
module MedianCut {
  import opened Wrappers
  import opened Colors
  import opened Sorting
  import opened Arith

  // ---------------------------------------------------------------------
  // Bitwise arithmetic on channel values
  // ---------------------------------------------------------------------

  /** Bitwise exclusive or of two naturals. */
  function Xor(a: nat, b: nat): nat
    decreases a + b
  {
    if a == 0 && b == 0 then 0 else 2 * Xor(a / 2, b / 2) + (a % 2 + b % 2) % 2
  }

  /** Bitwise and of two naturals. */
  function And(a: nat, b: nat): nat
    decreases a + b
  {
    if a == 0 || b == 0 then 0 else 2 * And(a / 2, b / 2) + (a % 2) * (b % 2)
  }

  /** The carry-free half of a sum plus twice its carries is the sum. */
  lemma {:induction false} XorPlusTwiceAnd(a: nat, b: nat)
    ensures Xor(a, b) + 2 * And(a, b) == a + b
    decreases a + b
  {
    if a != 0 || b != 0 {
      XorPlusTwiceAnd(a / 2, b / 2);
      var carry := if a % 2 == 1 && b % 2 == 1 then 1 else 0;
      assert Xor(a, b) == 2 * Xor(a / 2, b / 2) + (a % 2 + b % 2 - 2 * carry);
      assert And(a, b) == 2 * And(a / 2, b / 2) + carry;
    }
  }

  /**
    * `median_u8`: `((start ^ end) >> 1) + (start & end)`. The u8 addition
    * never wraps: the result is the floor of the mean of the two bounds.
    */
  function MedianU8(start: u8, end: u8): (m: u8)
    ensures m == (start + end) / 2
  {
    XorPlusTwiceAnd(start, end);
    Xor(start, end) / 2 + And(start, end)
  }

  // ---------------------------------------------------------------------
  // ColorRange
  // ---------------------------------------------------------------------

  /** `RangeInclusive<u8>`; `start > end` is an empty (inverted) range. */
  datatype Span = Span(start: u8, end: u8) {

    predicate Contains(v: int) {
      start <= v <= end
    }

    /** `ExactSizeIterator::len` of the range: zero once it is inverted. */
    function Len(): nat {
      if start <= end then end - start + 1 else 0
    }
  }

  /** An RGB bounding box: one inclusive range per channel. */
  datatype ColorRange = ColorRange(reds: Span, greens: Span, blues: Span)

  function SpanOf(cr: ColorRange, axis: Axis): Span {
    match axis
    case Red => cr.reds
    case Green => cr.greens
    case Blue => cr.blues
  }

  /** No channel range is inverted. */
  predicate WellFormed(cr: ColorRange) {
    cr.reds.start <= cr.reds.end && cr.greens.start <= cr.greens.end && cr.blues.start <= cr.blues.end
  }

  /** `ColorRange::contains`. */
  predicate Contains(cr: ColorRange, c: Color) {
    cr.reds.Contains(c.r) && cr.greens.Contains(c.g) && cr.blues.Contains(c.b)
  }

  /** `ColorRange::contains_space`: `outer` reaches at least as far as `inner` on every bound. */
  predicate ContainsSpace(outer: ColorRange, inner: ColorRange) {
    && outer.reds.start <= inner.reds.start && outer.reds.end >= inner.reds.end
    && outer.greens.start <= inner.greens.start && outer.greens.end >= inner.greens.end
    && outer.blues.start <= inner.blues.start && outer.blues.end >= inner.blues.end
  }

  /** What `from_colors` returns for no colours: every channel is `255..=0`. */
  const EmptyRange := ColorRange(Span(255, 0), Span(255, 0), Span(255, 0))

  function Min(a: int, b: int): int { if a <= b then a else b }
  function Max(a: int, b: int): int { if a >= b then a else b }

  /** One step of the single pass of `from_colors`. */
  function Widen(cr: ColorRange, c: Color): ColorRange {
    ColorRange(
      Span(Min(cr.reds.start, c.r), Max(cr.reds.end, c.r)),
      Span(Min(cr.greens.start, c.g), Max(cr.greens.end, c.g)),
      Span(Min(cr.blues.start, c.b), Max(cr.blues.end, c.b)))
  }

  /** Some colour of `colors` has channel value `v` on `axis`. */
  ghost predicate Attains(colors: seq<Color>, axis: Axis, v: int) {
    exists i :: 0 <= i < |colors| && Channel(colors[i], axis) == v
  }

  /**
    * `ColorRange::from_colors`: per-channel minimum and maximum of the
    * colours. Every colour lies in the box and every bound is attained, so
    * the box is the tightest one; no colours give the inverted `EmptyRange`.
    */
  function FromColors(colors: seq<Color>): (cr: ColorRange)
    ensures |colors| == 0 ==> cr == EmptyRange
    ensures |colors| > 0 ==> WellFormed(cr)
    ensures forall i :: 0 <= i < |colors| ==> Contains(cr, colors[i])
    ensures |colors| > 0 ==> forall axis ::
      Attains(colors, axis, SpanOf(cr, axis).start) && Attains(colors, axis, SpanOf(cr, axis).end)
  {
    if |colors| == 0 then
      EmptyRange
    else
      var prefix := colors[..|colors| - 1];
      var last := colors[|colors| - 1];
      var prev := FromColors(prefix);
      var cr := Widen(prev, last);
      assert forall i :: 0 <= i < |prefix| ==> prefix[i] == colors[i];
      assert forall axis, v :: Attains(prefix, axis, v) ==> Attains(colors, axis, v);
      assert forall axis ::
        Attains(colors, axis, SpanOf(cr, axis).start) && Attains(colors, axis, SpanOf(cr, axis).end)
      by {
        forall axis
          ensures Attains(colors, axis, SpanOf(cr, axis).start) && Attains(colors, axis, SpanOf(cr, axis).end)
        {
          var v := Channel(last, axis);
          assert Channel(colors[|colors| - 1], axis) == v;
          assert Attains(colors, axis, v);
          assert SpanOf(cr, axis) == Span(Min(SpanOf(prev, axis).start, v), Max(SpanOf(prev, axis).end, v));
          if |prefix| == 0 {
            assert SpanOf(prev, axis) == Span(255, 0);
          }
        }
      }
      cr
  }

  /** The box of the colours lies inside any box that contains them all. */
  lemma FromColorsTightest(colors: seq<Color>, box: ColorRange)
    requires forall i :: 0 <= i < |colors| ==> Contains(box, colors[i])
    ensures ContainsSpace(box, FromColors(colors))
  {
    var cr := FromColors(colors);
    if |colors| > 0 {
      forall axis
        ensures SpanOf(box, axis).start <= SpanOf(cr, axis).start
        ensures SpanOf(box, axis).end >= SpanOf(cr, axis).end
      {
        assert Attains(colors, axis, SpanOf(cr, axis).start);
        var i :| 0 <= i < |colors| && Channel(colors[i], axis) == SpanOf(cr, axis).start;
        assert Contains(box, colors[i]);
        assert Attains(colors, axis, SpanOf(cr, axis).end);
        var j :| 0 <= j < |colors| && Channel(colors[j], axis) == SpanOf(cr, axis).end;
        assert Contains(box, colors[j]);
      }
      assert SpanOf(cr, Red) == cr.reds && SpanOf(cr, Green) == cr.greens && SpanOf(cr, Blue) == cr.blues;
    }
  }

  /** The box of part of a bucket lies inside the box of the whole bucket. */
  lemma FromColorsSubset(part: seq<Color>, whole: seq<Color>)
    requires multiset(part) <= multiset(whole)
    ensures ContainsSpace(FromColors(whole), FromColors(part))
  {
    forall i | 0 <= i < |part| ensures Contains(FromColors(whole), part[i]) {
      assert part[i] in multiset(part);
      assert part[i] in whole;
    }
    FromColorsTightest(part, FromColors(whole));
  }

  /** `contains_space` is reflexive. */
  lemma ContainsSpaceReflexive(cr: ColorRange)
    ensures ContainsSpace(cr, cr)
  {
  }

  /** `contains_space` is transitive. */
  lemma ContainsSpaceTransitive(a: ColorRange, b: ColorRange, c: ColorRange)
    requires ContainsSpace(a, b) && ContainsSpace(b, c)
    ensures ContainsSpace(a, c)
  {
  }

  /** A colour of an inner box is a colour of the outer box. */
  lemma ContainsSpaceContains(a: ColorRange, b: ColorRange, c: Color)
    requires ContainsSpace(a, b) && Contains(b, c)
    ensures Contains(a, c)
  {
  }

  /**
    * `ColorRange::range`, the box's volume as a u32. The u8 subtractions
    * underflow on an inverted range, so the box must be well formed. The
    * volume is zero exactly when some channel holds a single value, and it
    * stays below 255^3, so the u32 product cannot overflow.
    */
  function Range(cr: ColorRange): (v: nat)
    requires WellFormed(cr)
    ensures v <= 255 * 255 * 255 < 0x1_0000_0000
    ensures v == 0 <==> cr.reds.start == cr.reds.end || cr.greens.start == cr.greens.end || cr.blues.start == cr.blues.end
  {
    var r: nat := cr.reds.end - cr.reds.start;
    var g: nat := cr.greens.end - cr.greens.start;
    var b: nat := cr.blues.end - cr.blues.start;
    MulMonotone(r, g, 255, 255);
    MulMonotone(r * g, b, 255 * 255, 255);
    assert r * g == 0 <==> r == 0 || g == 0;
    assert (r * g) * b == 0 <==> r * g == 0 || b == 0;
    r * g * b
  }

  /** A box inside another box never has the larger volume. */
  lemma RangeMonotone(outer: ColorRange, inner: ColorRange)
    requires WellFormed(inner) && ContainsSpace(outer, inner)
    ensures WellFormed(outer)
    ensures Range(inner) <= Range(outer)
  {
    var ri: nat, gi: nat, bi: nat := inner.reds.end - inner.reds.start, inner.greens.end - inner.greens.start, inner.blues.end - inner.blues.start;
    var ro: nat, go: nat, bo: nat := outer.reds.end - outer.reds.start, outer.greens.end - outer.greens.start, outer.blues.end - outer.blues.start;
    MulMonotone(ri, gi, ro, go);
    MulMonotone(ri * gi, bi, ro * go, bo);
  }

  /**
    * `ColorRange::median`: the per-channel floor of the mean of the bounds,
    * which lies in a well-formed box.
    */
  function Median(cr: ColorRange): (m: Color)
    ensures m.r == (cr.reds.start + cr.reds.end) / 2
    ensures m.g == (cr.greens.start + cr.greens.end) / 2
    ensures m.b == (cr.blues.start + cr.blues.end) / 2
    ensures WellFormed(cr) ==> Contains(cr, m)
  {
    Color(MedianU8(cr.reds.start, cr.reds.end), MedianU8(cr.greens.start, cr.greens.end), MedianU8(cr.blues.start, cr.blues.end))
  }

  // ---------------------------------------------------------------------
  // Bucket
  // ---------------------------------------------------------------------

  /** A run of colours together with their bounding box. */
  datatype Bucket = Bucket(colors: seq<Color>, space: ColorRange)

  /** `Bucket::new`: the colours together with the tightest box around them. */
  function NewBucket(colors: seq<Color>): (b: Bucket)
    ensures b.colors == colors
    ensures forall i :: 0 <= i < |colors| ==> Contains(b.space, colors[i])
    ensures |colors| > 0 ==> WellFormed(b.space)
  {
    Bucket(colors, FromColors(colors))
  }

  /**
    * The channel `Bucket::split` cuts along: one with the largest inclusive
    * length, preferring red, then green, then blue on ties.
    */
  function SplitAxis(cr: ColorRange): (axis: Axis)
    ensures forall other :: SpanOf(cr, other).Len() <= SpanOf(cr, axis).Len()
    ensures axis == Green ==> cr.reds.Len() < cr.greens.Len()
    ensures axis == Blue ==> cr.reds.Len() < cr.blues.Len() && cr.greens.Len() < cr.blues.Len()
  {
    if cr.reds.Len() >= cr.greens.Len() && cr.reds.Len() >= cr.blues.Len() then Red
    else if cr.greens.Len() >= cr.reds.Len() && cr.greens.Len() >= cr.blues.Len() then Green
    else Blue
  }

  /** Orders colours by their value on one channel. */
  function AxisLe(axis: Axis): (Color, Color) -> bool {
    (p: Color, q: Color) => Channel(p, axis) <= Channel(q, axis)
  }

  lemma AxisLeTotal(axis: Axis)
    ensures TotalPreorder(AxisLe(axis))
  {
  }

  /** The element at `k` has no larger key before it and no smaller key after it. */
  ghost predicate PartitionedAt(s: seq<Color>, k: nat, axis: Axis)
    requires k < |s|
  {
    && (forall i :: 0 <= i < k ==> Channel(s[i], axis) <= Channel(s[k], axis))
    && (forall i :: k < i < |s| ==> Channel(s[i], axis) >= Channel(s[k], axis))
  }

  /**
    * `select_nth_unstable_by_key(len / 2, key)`: a rearrangement of the
    * colours partitioned around the element at `len / 2`. The exact
    * arrangement the standard library produces is not modelled; this one
    * sorts by the key, which meets the same postcondition.
    */
  function SelectNth(colors: seq<Color>, axis: Axis): (arranged: seq<Color>)
    requires |colors| >= 1
    ensures multiset(arranged) == multiset(colors) && |arranged| == |colors|
    ensures PartitionedAt(arranged, |colors| / 2, axis)
  {
    AxisLeTotal(axis);
    SortBy(colors, AxisLe(axis))
  }

  /**
    * `Bucket::split`: cuts the bucket around the median element along the
    * widest channel. The left child holds the `len / 2` elements before the
    * median, the right child the elements after it; the median element
    * itself (returned as `pivot`) belongs to neither child. A bucket of one
    * or two colours therefore yields an empty child, whose box is the
    * inverted `EmptyRange`. An empty bucket cannot be split (the selection
    * index would be out of bounds).
    */
  function BucketSplit(b: Bucket): (r: (Bucket, Color, Bucket))
    requires |b.colors| >= 1
    requires b.space == FromColors(b.colors)
    ensures |r.0.colors| == |b.colors| / 2 && |r.2.colors| == |b.colors| - |b.colors| / 2 - 1
    ensures multiset(r.0.colors) + multiset{r.1} + multiset(r.2.colors) == multiset(b.colors)
    ensures forall c :: c in r.0.colors ==> Channel(c, SplitAxis(b.space)) <= Channel(r.1, SplitAxis(b.space))
    ensures forall c :: c in r.2.colors ==> Channel(c, SplitAxis(b.space)) >= Channel(r.1, SplitAxis(b.space))
    ensures r.0.space == FromColors(r.0.colors) && r.2.space == FromColors(r.2.colors)
    ensures ContainsSpace(b.space, r.0.space) && ContainsSpace(b.space, r.2.space)
  {
    var axis := SplitAxis(b.space);
    var (left, pivot, right) := CutAtMedian(b.colors, axis);
    assert multiset(left) <= multiset(b.colors) && multiset(right) <= multiset(b.colors);
    FromColorsSubset(left, b.colors);
    FromColorsSubset(right, b.colors);
    (NewBucket(left), pivot, NewBucket(right))
  }

  /** Cutting a partitioned sequence at its pivot keeps its colours and puts the smaller ones left. */
  lemma CutFacts(arranged: seq<Color>, k: nat, axis: Axis)
    requires k < |arranged| && PartitionedAt(arranged, k, axis)
    ensures multiset(arranged[..k]) + multiset{arranged[k]} + multiset(arranged[k + 1..]) == multiset(arranged)
    ensures forall c :: c in arranged[..k] ==> Channel(c, axis) <= Channel(arranged[k], axis)
    ensures forall c :: c in arranged[k + 1..] ==> Channel(c, axis) >= Channel(arranged[k], axis)
  {
    var left, right := arranged[..k], arranged[k + 1..];
    assert arranged == left + [arranged[k]] + right;
    forall c | c in left ensures Channel(c, axis) <= Channel(arranged[k], axis) {
      var j :| 0 <= j < k && left[j] == c;
      assert arranged[j] == c;
    }
    forall c | c in right ensures Channel(c, axis) >= Channel(arranged[k], axis) {
      var j :| 0 <= j < |right| && right[j] == c;
      assert arranged[k + 1 + j] == c;
    }
  }

  /**
    * The colours before the element at `len / 2` of the partitioned
    * arrangement, that element, and the colours after it.
    */
  function CutAtMedian(colors: seq<Color>, axis: Axis): (r: (seq<Color>, Color, seq<Color>))
    requires |colors| >= 1
    ensures |r.0| == |colors| / 2 && |r.2| == |colors| - |colors| / 2 - 1
    ensures multiset(r.0) + multiset{r.1} + multiset(r.2) == multiset(colors)
    ensures forall c :: c in r.0 ==> Channel(c, axis) <= Channel(r.1, axis)
    ensures forall c :: c in r.2 ==> Channel(c, axis) >= Channel(r.1, axis)
  {
    var arranged := SelectNth(colors, axis);
    var k := |colors| / 2;
    CutFacts(arranged, k, axis);
    (arranged[..k], arranged[k], arranged[k + 1..])
  }

  // ---------------------------------------------------------------------
  // Quantizer
  // ---------------------------------------------------------------------

  /** A tree node: its box and, once split, the indices of its two children. */
  datatype Node = Node(space: ColorRange, children: Option<(nat, nat)>)

  /** The palette: an arena of nodes whose root is at index 0. */
  datatype Quantizer = Quantizer(nodes: seq<Node>)

  /** The children of node `i` come after it, differ, and lie inside its box. */
  predicate ChildLinksOk(q: Quantizer, i: nat)
    requires i < |q.nodes|
  {
    match q.nodes[i].children
    case None => true
    case Some((l, r)) =>
      && i < l < |q.nodes| && i < r < |q.nodes| && l != r
      && ContainsSpace(q.nodes[i].space, q.nodes[l].space)
      && ContainsSpace(q.nodes[i].space, q.nodes[r].space)
  }

  /** A non-empty arena whose links all point forwards to contained boxes. */
  predicate ValidTree(q: Quantizer) {
    |q.nodes| >= 1 && forall i :: 0 <= i < |q.nodes| ==> ChildLinksOk(q, i)
  }

  /** The number of nodes that have not been split. */
  function LeafCount(nodes: seq<Node>): nat {
    if |nodes| == 0 then 0
    else LeafCount(nodes[..|nodes| - 1]) + (if nodes[|nodes| - 1].children.None? then 1 else 0)
  }

  lemma {:induction false} LeafCountAppend(nodes: seq<Node>, extra: Node)
    ensures LeafCount(nodes + [extra]) == LeafCount(nodes) + (if extra.children.None? then 1 else 0)
  {
    assert (nodes + [extra])[..|nodes|] == nodes;
  }

  /** Splitting one leaf turns it into an inner node. */
  lemma {:induction false} LeafCountUpdate(nodes: seq<Node>, i: nat, n: Node)
    requires i < |nodes| && nodes[i].children.None? && n.children.Some?
    ensures LeafCount(nodes[i := n]) == LeafCount(nodes) - 1
  {
    var last := |nodes| - 1;
    if i < last {
      assert nodes[i := n][..last] == nodes[..last][i := n];
      LeafCountUpdate(nodes[..last], i, n);
    } else {
      assert nodes[i := n][..last] == nodes[..last];
    }
  }

  /** `Quantizer::new`: a single leaf holding the whole box. */
  function QuantizerNew(space: ColorRange, numColors: nat): (q: Quantizer)
    requires numColors >= 1
    ensures ValidTree(q) && LeafCount(q.nodes) == 1 && |q.nodes| == 1
    ensures q.nodes[0].space == space
  {
    // `Vec::with_capacity(2 * num_colors - 1)` underflows for no colours.
    assert [Node(space, None)][..0] == [];
    Quantizer([Node(space, None)])
  }

  /** The arena after `Quantizer::split(node, left, right)`. */
  function SplitNodes(q: Quantizer, node: nat, left: ColorRange, right: ColorRange): seq<Node>
    requires node < |q.nodes|
  {
    q.nodes[node := Node(q.nodes[node].space, Some((|q.nodes|, |q.nodes| + 1)))]
      + [Node(left, None), Node(right, None)]
  }

  lemma SplitNodesValid(q: Quantizer, node: nat, left: ColorRange, right: ColorRange)
    requires ValidTree(q) && node < |q.nodes|
    requires ContainsSpace(q.nodes[node].space, left) && ContainsSpace(q.nodes[node].space, right)
    ensures ValidTree(Quantizer(SplitNodes(q, node, left, right)))
  {
    var q' := Quantizer(SplitNodes(q, node, left, right));
    forall i | 0 <= i < |q'.nodes| ensures ChildLinksOk(q', i) {
      if i < |q.nodes| && i != node {
        assert ChildLinksOk(q, i);
        assert q'.nodes[i] == q.nodes[i];
        match q.nodes[i].children
        case None =>
        case Some((l, r)) =>
          assert q'.nodes[l].space == q.nodes[l].space;
          assert q'.nodes[r].space == q.nodes[r].space;
      }
    }
  }

  lemma SplitNodesLeafCount(q: Quantizer, node: nat, left: ColorRange, right: ColorRange)
    requires node < |q.nodes| && q.nodes[node].children.None?
    ensures LeafCount(SplitNodes(q, node, left, right)) == LeafCount(q.nodes) + 1
  {
    var updated := q.nodes[node := Node(q.nodes[node].space, Some((|q.nodes|, |q.nodes| + 1)))];
    LeafCountUpdate(q.nodes, node, Node(q.nodes[node].space, Some((|q.nodes|, |q.nodes| + 1))));
    LeafCountAppend(updated, Node(left, None));
    LeafCountAppend(updated + [Node(left, None)], Node(right, None));
    assert updated + [Node(left, None)] + [Node(right, None)] == SplitNodes(q, node, left, right);
  }

  lemma SplitNodesFacts(q: Quantizer, node: nat, left: ColorRange, right: ColorRange)
    requires node < |q.nodes|
    requires ContainsSpace(q.nodes[node].space, left) && ContainsSpace(q.nodes[node].space, right)
    ensures ValidTree(q) ==> ValidTree(Quantizer(SplitNodes(q, node, left, right)))
    ensures q.nodes[node].children.None? ==> LeafCount(SplitNodes(q, node, left, right)) == LeafCount(q.nodes) + 1
  {
    if ValidTree(q) {
      SplitNodesValid(q, node, left, right);
    }
    if q.nodes[node].children.None? {
      SplitNodesLeafCount(q, node, left, right);
    }
  }

  /**
    * `Quantizer::split`: appends a leaf for each half at the indices `len`
    * and `len + 1` and records them as the children of `node`. Nothing
    * else changes; a valid tree stays valid, and splitting a leaf adds one
    * leaf overall.
    */
  function QuantizerSplit(q: Quantizer, node: nat, left: ColorRange, right: ColorRange): (r: (Quantizer, nat, nat))
    requires node < |q.nodes|
    requires ContainsSpace(q.nodes[node].space, left) && ContainsSpace(q.nodes[node].space, right)
    ensures r.1 == |q.nodes| && r.2 == |q.nodes| + 1 && |r.0.nodes| == |q.nodes| + 2
    ensures r.0.nodes[node] == Node(q.nodes[node].space, Some((r.1, r.2)))
    ensures r.0.nodes[r.1] == Node(left, None) && r.0.nodes[r.2] == Node(right, None)
    ensures forall i :: 0 <= i < |q.nodes| && i != node ==> r.0.nodes[i] == q.nodes[i]
    ensures ValidTree(q) ==> ValidTree(r.0)
    ensures q.nodes[node].children.None? ==> LeafCount(r.0.nodes) == LeafCount(q.nodes) + 1
  {
    SplitNodesFacts(q, node, left, right);
    (Quantizer(SplitNodes(q, node, left, right)), |q.nodes|, |q.nodes| + 1)
  }

  /** The descent may stop at node `s`: it is a leaf, or neither child holds `c`. */
  predicate StopsAt(q: Quantizer, s: nat, c: Color)
    requires ValidTree(q) && s < |q.nodes|
  {
    assert ChildLinksOk(q, s);
    match q.nodes[s].children
    case None => true
    case Some((l, r)) => !Contains(q.nodes[l].space, c) && !Contains(q.nodes[r].space, c)
  }

  /**
    * The loop of `Quantizer::quantize` from node `i`: step into the left
    * child if its box holds `c`, else into the right child if its box does,
    * else stop. It terminates because children follow their parents.
    */
  function Descend(q: Quantizer, i: nat, c: Color): (s: nat)
    requires ValidTree(q) && i < |q.nodes|
    ensures i <= s < |q.nodes|
    ensures StopsAt(q, s, c)
    ensures s != i ==> Contains(q.nodes[s].space, c)
    ensures ContainsSpace(q.nodes[i].space, q.nodes[s].space)
    decreases |q.nodes| - i
  {
    assert ChildLinksOk(q, i);
    match q.nodes[i].children
    case None => i
    case Some((l, r)) =>
      if Contains(q.nodes[l].space, c) then Descend(q, l, c)
      else if Contains(q.nodes[r].space, c) then Descend(q, r, c)
      else i
  }

  /** When both children hold the colour, the descent takes the left one. */
  lemma DescendPrefersLeft(q: Quantizer, i: nat, c: Color)
    requires ValidTree(q) && i < |q.nodes| && q.nodes[i].children.Some?
    requires q.nodes[i].children.value.0 < |q.nodes|
    requires Contains(q.nodes[q.nodes[i].children.value.0].space, c)
    ensures ChildLinksOk(q, i)
    ensures Descend(q, i, c) == Descend(q, q.nodes[i].children.value.0, c)
  {
    assert ChildLinksOk(q, i);
  }

  /** When only the right child holds the colour, the descent takes the right one. */
  lemma DescendTakesRight(q: Quantizer, i: nat, c: Color)
    requires ValidTree(q) && i < |q.nodes| && q.nodes[i].children.Some?
    requires q.nodes[i].children.value.0 < |q.nodes| && q.nodes[i].children.value.1 < |q.nodes|
    requires !Contains(q.nodes[q.nodes[i].children.value.0].space, c)
    requires Contains(q.nodes[q.nodes[i].children.value.1].space, c)
    ensures ChildLinksOk(q, i)
    ensures Descend(q, i, c) == Descend(q, q.nodes[i].children.value.1, c)
  {
    assert ChildLinksOk(q, i);
  }

  /** At a leaf, or at a node neither of whose children holds the colour, the descent stops. */
  lemma DescendStopsWhenNeither(q: Quantizer, i: nat, c: Color)
    requires ValidTree(q) && i < |q.nodes|
    requires q.nodes[i].children.Some? ==>
      && q.nodes[i].children.value.0 < |q.nodes| && q.nodes[i].children.value.1 < |q.nodes|
      && !Contains(q.nodes[q.nodes[i].children.value.0].space, c)
      && !Contains(q.nodes[q.nodes[i].children.value.1].space, c)
    ensures Descend(q, i, c) == i
  {
  }

  /**
    * `Quantizer::quantize`: the median of the box where the descent from the
    * root stops. That box lies in the root box and, unless the descent
    * stopped at the root, holds `c`.
    */
  function Quantize(q: Quantizer, c: Color): (m: Color)
    requires ValidTree(q)
    ensures exists s :: (
      && 0 <= s < |q.nodes| && StopsAt(q, s, c) && m == Median(q.nodes[s].space)
      && (s != 0 ==> Contains(q.nodes[s].space, c))
      && ContainsSpace(q.nodes[0].space, q.nodes[s].space))
  {
    var s := Descend(q, 0, c);
    Median(q.nodes[s].space)
  }

  /** In a tree of well-formed boxes every palette colour lies in the root box. */
  lemma QuantizeInRoot(q: Quantizer, c: Color)
    requires ValidTree(q)
    requires forall i :: 0 <= i < |q.nodes| ==> WellFormed(q.nodes[i].space)
    ensures Contains(q.nodes[0].space, Quantize(q, c))
  {
    var s := Descend(q, 0, c);
    assert Contains(q.nodes[s].space, Median(q.nodes[s].space));
  }

  // ---------------------------------------------------------------------
  // median_cut
  // ---------------------------------------------------------------------

  /** The distinct colours of the input. */
  ghost function Distinct(colors: seq<Color>): set<Color> {
    set c | c in colors
  }

  lemma SubsetCard<T>(a: set<T>, b: set<T>)
    requires a <= b
    ensures |a| <= |b|
  {
    assert b == a + (b - a);
  }

  /**
    * The leaf count `median_cut` aims for: the HashSet loop stops once it has
    * seen `numColors` distinct colours, but only after its first insertion,
    * so a request of 0 still yields one colour.
    */
  method DistinctCount(colors: seq<Color>, numColors: nat) returns (n: nat)
    requires |colors| >= 1
    ensures n == Min(|Distinct(colors)|, Max(numColors, 1))
  {
    var seen: set<Color> := {};
    var i := 0;
    ghost var prev := 0;
    while i < |colors|
      invariant 0 <= i <= |colors|
      invariant seen == set j | 0 <= j < i :: colors[j]
      invariant i > 0 ==> |seen| < numColors
    {
      prev := |seen|;
      assert (set j | 0 <= j < i + 1 :: colors[j]) == seen + {colors[i]};
      seen := seen + {colors[i]};
      i := i + 1;
      if |seen| >= numColors {
        break;
      }
    }
    assert seen <= Distinct(colors);
    SubsetCard(seen, Distinct(colors));
    if i == |colors| {
      assert seen == Distinct(colors);
    }
    n := |seen|;
  }

  /** A bucket waiting in the max-heap, with the tree node that holds its box. */
  datatype HeapItem = HeapItem(bucket: Bucket, node: nat)

  /**
    * `BinaryHeap::pop` on buckets ordered by `range()`: the index of a bucket
    * of maximal volume (the first such; the heap's own tie-break is not
    * modelled).
    */
  function MaxRangeIndex(heap: seq<HeapItem>): (i: nat)
    requires |heap| >= 1
    requires forall j :: 0 <= j < |heap| ==> WellFormed(heap[j].bucket.space)
    ensures i < |heap|
    ensures forall j :: 0 <= j < |heap| ==> Range(heap[j].bucket.space) <= Range(heap[i].bucket.space)
  {
    if |heap| == 1 then 0
    else
      var k := MaxRangeIndex(heap[..|heap| - 1]);
      assert forall j :: 0 <= j < |heap| - 1 ==> heap[..|heap| - 1][j] == heap[j];
      if Range(heap[|heap| - 1].bucket.space) > Range(heap[k].bucket.space) then |heap| - 1 else k
  }

  /**
    * The state in which `median_cut` aborts: a partial tree with fewer
    * buckets than the target whose bucket of largest volume holds at most
    * two colours, so that splitting it leaves a child without colours.
    */
  ghost predicate StuckAt(q: Quantizer, heap: seq<HeapItem>, colors: seq<Color>, target: nat) {
    && GrowthInv(q, heap, colors)
    && |heap| < target
    && |heap[MaxRangeIndex(heap)].bucket.colors| <= 2
  }

  /** Why `median_cut` aborts. */
  datatype CutError =
    /**
      * A split produced a bucket with no colours; comparing it in the heap
      * calls `range()` on `255..=0`, whose u8 subtraction underflows and
      * panics in an overflow-checked build.
      */
    EmptyBucket

  /** A heap entry is a non-empty bucket whose box is a leaf of the tree. */
  ghost predicate HeapItemOk(q: Quantizer, item: HeapItem) {
    && |item.bucket.colors| >= 1
    && item.bucket.space == FromColors(item.bucket.colors)
    && item.node < |q.nodes|
    && q.nodes[item.node].space == item.bucket.space
    && q.nodes[item.node].children.None?
  }

  /** The colours of all buckets in the heap, together. */
  function HeapColors(heap: seq<HeapItem>): multiset<Color>
    decreases |heap|
  {
    if |heap| == 0 then multiset{}
    else HeapColors(heap[..|heap| - 1]) + multiset(heap[|heap| - 1].bucket.colors)
  }

  lemma {:induction false} HeapColorsConcat(a: seq<HeapItem>, b: seq<HeapItem>)
    ensures HeapColors(a + b) == HeapColors(a) + HeapColors(b)
    decreases |b|
  {
    if |b| > 0 {
      var n := |b| - 1;
      assert (a + b)[..|a + b| - 1] == a + b[..n];
      HeapColorsConcat(a, b[..n]);
    } else {
      assert a + b == a;
    }
  }

  lemma HeapColorsSingle(x: HeapItem)
    ensures HeapColors([x]) == multiset(x.bucket.colors)
  {
    assert [x][..0] == [];
  }

  /** Taking one entry out of the heap takes out exactly its bucket's colours. */
  lemma HeapColorsRemove(heap: seq<HeapItem>, i: nat)
    requires i < |heap|
    ensures HeapColors(heap) == HeapColors(RemoveAt(heap, i)) + multiset(heap[i].bucket.colors)
  {
    var before, after := heap[..i], heap[i + 1..];
    assert heap == (before + [heap[i]]) + after;
    assert RemoveAt(heap, i) == before + after;
    HeapColorsConcat(before + [heap[i]], after);
    HeapColorsConcat(before, [heap[i]]);
    HeapColorsConcat(before, after);
    HeapColorsSingle(heap[i]);
  }

  /**
    * Replacing a bucket by the two halves of its split loses exactly the
    * median, which neither half keeps.
    */
  lemma HeapColorsStep(heap: seq<HeapItem>, i: nat, left: Bucket, pivot: Color, right: Bucket, l: nat, r: nat)
    requires i < |heap|
    requires multiset(left.colors) + multiset{pivot} + multiset(right.colors) == multiset(heap[i].bucket.colors)
    ensures HeapColors(heap) == HeapColors(RemoveAt(heap, i) + [HeapItem(left, l), HeapItem(right, r)]) + multiset{pivot}
  {
    HeapColorsRemove(heap, i);
    HeapColorsConcat(RemoveAt(heap, i), [HeapItem(left, l), HeapItem(right, r)]);
    HeapColorsConcat([HeapItem(left, l)], [HeapItem(right, r)]);
    HeapColorsSingle(HeapItem(left, l));
    HeapColorsSingle(HeapItem(right, r));
    assert [HeapItem(left, l), HeapItem(right, r)] == [HeapItem(left, l)] + [HeapItem(right, r)];
  }

  /**
    * What holds between the rounds of `median_cut`: the heap holds one
    * non-empty bucket per leaf of a valid tree of well-formed boxes rooted at
    * the box of all colours. The buckets hold the input's colours except the
    * medians dropped so far, one per round.
    */
  ghost predicate GrowthInv(q: Quantizer, heap: seq<HeapItem>, colors: seq<Color>) {
    && |heap| >= 1
    && HeapColors(heap) <= multiset(colors)
    && |colors| == |HeapColors(heap)| + |heap| - 1
    && ValidTree(q)
    && |q.nodes| == 2 * |heap| - 1
    && LeafCount(q.nodes) == |heap|
    && q.nodes[0].space == FromColors(colors)
    && (forall i :: 0 <= i < |q.nodes| ==> WellFormed(q.nodes[i].space))
    && (forall j :: 0 <= j < |heap| ==> HeapItemOk(q, heap[j]))
    && (forall j, k :: 0 <= j < k < |heap| ==> heap[j].node != heap[k].node)
  }

  /** `heap` without its `i`-th entry. */
  function RemoveAt(heap: seq<HeapItem>, i: nat): (rest: seq<HeapItem>)
    requires i < |heap|
    ensures |rest| == |heap| - 1
    ensures forall j :: 0 <= j < |rest| ==> rest[j] == if j < i then heap[j] else heap[j + 1]
  {
    heap[..i] + heap[i + 1..]
  }

  lemma GrowthInvStep(q: Quantizer, heap: seq<HeapItem>, colors: seq<Color>, i: nat,
                      left: Bucket, pivot: Color, right: Bucket, q': Quantizer, l: nat, r: nat)
    requires GrowthInv(q, heap, colors) && i < |heap|
    requires multiset(left.colors) + multiset{pivot} + multiset(right.colors) == multiset(heap[i].bucket.colors)
    requires |left.colors| >= 1 && left.space == FromColors(left.colors)
    requires |right.colors| >= 1 && right.space == FromColors(right.colors)
    requires ContainsSpace(q.nodes[heap[i].node].space, left.space)
    requires ContainsSpace(q.nodes[heap[i].node].space, right.space)
    requires (q', l, r) == QuantizerSplit(q, heap[i].node, left.space, right.space)
    ensures GrowthInv(q', RemoveAt(heap, i) + [HeapItem(left, l), HeapItem(right, r)], colors)
  {
    assert HeapItemOk(q, heap[i]);
    HeapStepItems(q, heap, i, left, right, q', l, r);
    SplitKeepsWellFormed(q, heap[i].node, left.space, right.space, q');
    HeapColorsStep(heap, i, left, pivot, right, l, r);
  }

  /** After the split, the remaining entries and the two halves are entries of distinct leaves. */
  lemma HeapStepItems(q: Quantizer, heap: seq<HeapItem>, i: nat,
                      left: Bucket, right: Bucket, q': Quantizer, l: nat, r: nat)
    requires i < |heap| && HeapItemOk(q, heap[i])
    requires forall j :: 0 <= j < |heap| ==> HeapItemOk(q, heap[j])
    requires forall j, k :: 0 <= j < k < |heap| ==> heap[j].node != heap[k].node
    requires |left.colors| >= 1 && left.space == FromColors(left.colors)
    requires |right.colors| >= 1 && right.space == FromColors(right.colors)
    requires ContainsSpace(q.nodes[heap[i].node].space, left.space)
    requires ContainsSpace(q.nodes[heap[i].node].space, right.space)
    requires (q', l, r) == QuantizerSplit(q, heap[i].node, left.space, right.space)
    ensures forall j :: 0 <= j < |heap| + 1 ==> HeapItemOk(q', (RemoveAt(heap, i) + [HeapItem(left, l), HeapItem(right, r)])[j])
    ensures forall j, k :: 0 <= j < k < |heap| + 1 ==>
      (RemoveAt(heap, i) + [HeapItem(left, l), HeapItem(right, r)])[j].node
        != (RemoveAt(heap, i) + [HeapItem(left, l), HeapItem(right, r)])[k].node
  {
    var item := heap[i];
    var rest := RemoveAt(heap, i);
    var heap' := rest + [HeapItem(left, l), HeapItem(right, r)];
    RestItems(q, heap, i, left.space, right.space, q');
    forall j | 0 <= j < |heap'| ensures HeapItemOk(q', heap'[j]) {
      if j < |rest| {
        assert heap'[j] == rest[j];
      }
    }
    forall j, k | 0 <= j < k < |heap'| ensures heap'[j].node != heap'[k].node {
      if k < |rest| {
        assert heap'[j] == rest[j] && heap'[k] == rest[k];
      } else if j < |rest| {
        assert heap'[j] == rest[j];
      }
    }
  }

  /** The entries other than the split one stay entries of leaves below the old arena's end, and stay distinct. */
  lemma RestItems(q: Quantizer, heap: seq<HeapItem>, i: nat, left: ColorRange, right: ColorRange, q': Quantizer)
    requires i < |heap| && HeapItemOk(q, heap[i])
    requires forall j :: 0 <= j < |heap| ==> HeapItemOk(q, heap[j])
    requires forall j, k :: 0 <= j < k < |heap| ==> heap[j].node != heap[k].node
    requires ContainsSpace(q.nodes[heap[i].node].space, left)
    requires ContainsSpace(q.nodes[heap[i].node].space, right)
    requires q' == QuantizerSplit(q, heap[i].node, left, right).0
    ensures forall j :: 0 <= j < |heap| - 1 ==> HeapItemOk(q', RemoveAt(heap, i)[j]) && RemoveAt(heap, i)[j].node < |q.nodes|
    ensures forall j, k :: 0 <= j < k < |heap| - 1 ==> RemoveAt(heap, i)[j].node != RemoveAt(heap, i)[k].node
  {
    var rest := RemoveAt(heap, i);
    forall j | 0 <= j < |rest| ensures HeapItemOk(q', rest[j]) && rest[j].node < |q.nodes| {
      assert HeapItemOk(q, rest[j]);
      assert rest[j].node != heap[i].node;
    }
  }

  /** Splitting a node into two well-formed boxes keeps every box of the tree well-formed. */
  lemma SplitKeepsWellFormed(q: Quantizer, node: nat, left: ColorRange, right: ColorRange, q': Quantizer)
    requires node < |q.nodes|
    requires ContainsSpace(q.nodes[node].space, left) && ContainsSpace(q.nodes[node].space, right)
    requires forall n :: 0 <= n < |q.nodes| ==> WellFormed(q.nodes[n].space)
    requires WellFormed(left) && WellFormed(right)
    requires q' == QuantizerSplit(q, node, left, right).0
    ensures forall n :: 0 <= n < |q'.nodes| ==> WellFormed(q'.nodes[n].space)
  {
    forall n | 0 <= n < |q'.nodes| ensures WellFormed(q'.nodes[n].space) {
      if n < |q.nodes| && n != node {
        assert q'.nodes[n] == q.nodes[n];
      }
    }
  }

  /** Every bucket of a heap entry has a well-formed box. */
  lemma ItemsWellFormed(q: Quantizer, heap: seq<HeapItem>)
    requires forall j :: 0 <= j < |heap| ==> HeapItemOk(q, heap[j])
    ensures forall j :: 0 <= j < |heap| ==> WellFormed(heap[j].bucket.space)
  {
    forall j | 0 <= j < |heap| ensures WellFormed(heap[j].bucket.space) {
      assert HeapItemOk(q, heap[j]);
    }
  }

  /** The state before the first round: the box of all colours as the only leaf, and its bucket. */
  function StartState(colors: seq<Color>): (Quantizer, seq<HeapItem>) {
    (Quantizer([Node(FromColors(colors), None)]), [HeapItem(NewBucket(colors), 0)])
  }

  lemma StartInv(colors: seq<Color>)
    requires |colors| >= 1
    ensures GrowthInv(StartState(colors).0, StartState(colors).1, colors)
  {
    var (q, heap) := StartState(colors);
    assert q == QuantizerNew(FromColors(colors), 1);
    assert HeapItemOk(q, heap[0]);
    HeapColorsSingle(heap[0]);
  }

  /**
    * One round of `median_cut` as a function of the state: the bucket of
    * largest volume is split at its median, its node gets the halves' boxes
    * as children, and the halves take its place in the heap.
    */
  function NextState(q: Quantizer, heap: seq<HeapItem>): (Quantizer, seq<HeapItem>)
    requires |heap| >= 1 && forall j :: 0 <= j < |heap| ==> HeapItemOk(q, heap[j])
  {
    ItemsWellFormed(q, heap);
    var i := MaxRangeIndex(heap);
    assert HeapItemOk(q, heap[i]);
    var (left, _, right) := BucketSplit(heap[i].bucket);
    var (q', l, r) := QuantizerSplit(q, heap[i].node, left.space, right.space);
    (q', RemoveAt(heap, i) + [HeapItem(left, l), HeapItem(right, r)])
  }

  /** A round on a bucket of three or more colours keeps the invariant and grows the heap by one. */
  lemma NextStateInv(q: Quantizer, heap: seq<HeapItem>, colors: seq<Color>)
    requires GrowthInv(q, heap, colors)
    requires |heap[MaxRangeIndex(heap)].bucket.colors| > 2
    ensures GrowthInv(NextState(q, heap).0, NextState(q, heap).1, colors)
    ensures |NextState(q, heap).1| == |heap| + 1
  {
    var i := MaxRangeIndex(heap);
    assert HeapItemOk(q, heap[i]);
    var (left, pivot, right) := BucketSplit(heap[i].bucket);
    var (q', l, r) := QuantizerSplit(q, heap[i].node, left.space, right.space);
    GrowthInvStep(q, heap, colors, i, left, pivot, right, q', l, r);
  }

  /**
    * The rounds of `median_cut` from the state (q, heap) on, until the heap
    * holds `target` buckets: the finished tree, or the state whose round
    * pops a bucket of at most two colours and so fails.
    */
  ghost function Grow(colors: seq<Color>, q: Quantizer, heap: seq<HeapItem>, target: nat)
    : (r: Result<Quantizer, (Quantizer, seq<HeapItem>)>)
    requires GrowthInv(q, heap, colors)
    ensures r.Err? ==> StuckAt(r.error.0, r.error.1, colors, target)
    ensures r.Ok? && |heap| <= target ==> LeafCount(r.value.nodes) == target && |r.value.nodes| == 2 * target - 1
    ensures r.Ok? ==> |r.value.nodes| >= 1 && |q.nodes| >= 1 && r.value.nodes[0].space == q.nodes[0].space
    ensures r.Ok? ==> ValidTree(r.value) && forall n :: 0 <= n < |r.value.nodes| ==> WellFormed(r.value.nodes[n].space)
    decreases target - |heap|
  {
    if |heap| >= target then Ok(q)
    else if |heap[MaxRangeIndex(heap)].bucket.colors| <= 2 then Err((q, heap))
    else
      NextStateInv(q, heap, colors);
      Grow(colors, NextState(q, heap).0, NextState(q, heap).1, target)
  }

  /** The leaf count `median_cut` aims for; at least one for a non-empty picture. */
  ghost function LeafTarget(colors: seq<Color>, numColors: nat): (t: nat)
    requires |colors| >= 1
    ensures t >= 1
  {
    assert colors[0] in Distinct(colors);
    Min(|Distinct(colors)|, Max(numColors, 1))
  }

  /**
    * What `median_cut` computes: the rounds from the start state until the
    * heap holds the target leaf count of buckets. Each round splits the
    * first bucket of largest volume; among buckets of equal volume the
    * source's `BinaryHeap` may pop another one.
    */
  ghost function Palette(colors: seq<Color>, numColors: nat): Result<Quantizer, (Quantizer, seq<HeapItem>)>
    requires |colors| >= 1
  {
    StartInv(colors);
    Grow(colors, StartState(colors).0, StartState(colors).1, LeafTarget(colors, numColors))
  }

  /** `q` is the palette `median_cut` returns, with the shape its rounds give it. */
  ghost predicate BuiltPalette(q: Quantizer, colors: seq<Color>, numColors: nat)
    requires |colors| >= 1
  {
    && Palette(colors, numColors) == Ok(q)
    && ValidTree(q)
    && LeafCount(q.nodes) == Min(|Distinct(colors)|, Max(numColors, 1))
    && |q.nodes| == 2 * LeafCount(q.nodes) - 1
    && q.nodes[0].space == FromColors(colors)
    && (forall i :: 0 <= i < |q.nodes| ==> WellFormed(q.nodes[i].space))
  }

  /**
    * How `median_cut` fails: the rounds from the start reach (q, heap), a
    * state with fewer buckets than the target whose bucket of largest volume
    * holds at most two colours.
    */
  ghost predicate FailedAt(q: Quantizer, heap: seq<HeapItem>, colors: seq<Color>, numColors: nat)
    requires |colors| >= 1
  {
    && Palette(colors, numColors) == Err((q, heap))
    && StuckAt(q, heap, colors, LeafTarget(colors, numColors))
  }

  /**
    * One round of `median_cut`: pop a bucket of largest volume, split it, add
    * its halves to the tree and push them. The round fails where the source
    * aborts, when one half has no colours: exactly when the popped bucket
    * holds at most two colours. Otherwise the result is the round's
    * `NextState`.
    */
  method GrowOnce(q: Quantizer, heap: seq<HeapItem>, ghost colors: seq<Color>)
    returns (res: Result<(Quantizer, seq<HeapItem>), CutError>)
    requires GrowthInv(q, heap, colors)
    ensures res.Err? <==> |heap[MaxRangeIndex(heap)].bucket.colors| <= 2
    ensures res.Ok? ==> res.value == NextState(q, heap)
    ensures res.Ok? ==> GrowthInv(res.value.0, res.value.1, colors) && |res.value.1| == |heap| + 1
  {
    var i := MaxRangeIndex(heap);
    var item := heap[i];
    assert HeapItemOk(q, item);
    var (left, pivot, right) := BucketSplit(item.bucket);
    var (q', l, r) := QuantizerSplit(q, item.node, left.space, right.space);
    if |left.colors| == 0 || |right.colors| == 0 {
      return Err(EmptyBucket);
    }
    GrowthInvStep(q, heap, colors, i, left, pivot, right, q', l, r);
    return Ok((q', RemoveAt(heap, i) + [HeapItem(left, l), HeapItem(right, r)]));
  }

  /**
    * `median_cut`: grows the palette tree by repeatedly splitting the bucket
    * of largest volume until the heap holds as many buckets as the target
    * leaf count `min(max(numColors, 1), distinct colours)`. The heap grows by
    * one per round, so the loop ends with exactly that many leaves and twice
    * as many nodes less one. It fails where the source aborts: when a split
    * leaves a child without colours. The result is the `Palette` the rounds
    * reach, and on failure the ghost results are the state the rounds
    * reached before the one that failed.
    */
  method MedianCutTree(colors: seq<Color>, numColors: nat)
    returns (res: Result<Quantizer, CutError>, ghost stuckTree: Quantizer, ghost stuckHeap: seq<HeapItem>)
    requires |colors| >= 1
    ensures res.Ok? ==> BuiltPalette(res.value, colors, numColors)
    ensures res.Ok? <==> Palette(colors, numColors).Ok?
    ensures res.Err? ==> FailedAt(stuckTree, stuckHeap, colors, numColors)
    ensures Min(|Distinct(colors)|, Max(numColors, 1)) == 1 ==> res.Ok?
  {
    var target := DistinctCount(colors, numColors);
    assert colors[0] in Distinct(colors);
    var start := NewBucket(colors);
    var q := QuantizerNew(start.space, target);
    var heap := [HeapItem(start, 0)];
    assert (q, heap) == StartState(colors);
    StartInv(colors);
    stuckTree, stuckHeap := q, heap;
    while |heap| < target
      invariant |heap| <= target
      invariant GrowthInv(q, heap, colors)
      invariant Grow(colors, q, heap, target) == Palette(colors, numColors)
      decreases target - |heap|
    {
      var step := GrowOnce(q, heap, colors);
      if step.Err? {
        stuckTree, stuckHeap := q, heap;
        res := Err(step.error);
        return;
      }
      q, heap := step.value.0, step.value.1;
    }
    res := Ok(q);
  }
}

=== FILE: optimizer.dfy ===
/**
  * The rectangle optimiser of crates/autopixel/src/quadtree.rs (`optimize`):
  * repeated passes that sort the list by (x, y) and merge runs of vertical
  * neighbours, then sort by (y, x) and merge runs of horizontal neighbours,
  * until a pass merges nothing.
  */
module Optimizer {
  import opened Rectangles
  import opened Sorting

  /** The sum of the areas of `rs`. */
  function TotalArea(rs: seq<Rect>): nat
    decreases |rs|
  {
    if |rs| == 0 then 0 else TotalArea(rs[..|rs| - 1]) + Area(rs[|rs| - 1])
  }

  lemma {:induction false} TotalAreaConcat(a: seq<Rect>, b: seq<Rect>)
    ensures TotalArea(a + b) == TotalArea(a) + TotalArea(b)
    decreases |b|
  {
    if |b| == 0 {
      assert a + b == a;
    } else {
      assert (a + b)[..|a + b| - 1] == a + b[..|b| - 1];
      TotalAreaConcat(a, b[..|b| - 1]);
    }
  }

  /** Reordering a list does not change its total area. */
  lemma {:induction false} TotalAreaPermutation(a: seq<Rect>, b: seq<Rect>)
    requires multiset(a) == multiset(b)
    ensures TotalArea(a) == TotalArea(b)
    decreases |a|
  {
    if |a| > 0 {
      var n := |a| - 1;
      var x := a[n];
      assert a == a[..n] + [x];
      assert x in multiset(b);
      var k :| 0 <= k < |b| && b[k] == x;
      var b' := b[..k] + b[k + 1..];
      assert b == b[..k] + [x] + b[k + 1..];
      assert multiset(b) == multiset(b[..k]) + multiset{x} + multiset(b[k + 1..]);
      assert multiset(a) == multiset(a[..n]) + multiset{x};
      assert multiset(b') == multiset(b[..k]) + multiset(b[k + 1..]);
      assert multiset(b') == multiset(b) - multiset{x};
      assert multiset(a[..n]) == multiset(a) - multiset{x};
      TotalAreaPermutation(a[..n], b');
      TotalAreaConcat(b[..k], [x]);
      TotalAreaConcat(b[..k] + [x], b[k + 1..]);
      TotalAreaConcat(b[..k], b[k + 1..]);
    }
  }

  /** Reordering a list does not change the cells it covers. */
  lemma CoveredPermutation(a: seq<Rect>, b: seq<Rect>, px: int, py: int)
    requires multiset(a) == multiset(b)
    ensures Covered(a, px, py) <==> Covered(b, px, py)
  {
    if Covered(a, px, py) {
      var i :| 0 <= i < |a| && InRect(a[i], px, py);
      assert a[i] in multiset(b);
      var j :| 0 <= j < |b| && b[j] == a[i];
    }
    if Covered(b, px, py) {
      var j :| 0 <= j < |b| && InRect(b[j], px, py);
      assert b[j] in multiset(a);
      var i :| 0 <= i < |a| && a[i] == b[j];
    }
  }

  /** No two neighbours of `rs` can be merged. */
  predicate NoMergeableNeighbours(rs: seq<Rect>) {
    forall i :: 1 <= i < |rs| ==> Merge(rs[i - 1], rs[i]).None?
  }

  /**
    * One merge sweep over a sorted list: each rectangle of `rest` is merged
    * into the last rectangle of `acc` when `merge` allows it and appended
    * otherwise.
    */
  function Sweep(acc: seq<Rect>, rest: seq<Rect>): (r: seq<Rect>)
    requires |acc| >= 1
    ensures 1 <= |r| <= |acc| + |rest| && |acc| <= |r| + |rest|
    decreases |rest|
  {
    if |rest| == 0 then acc
    else
      match Merge(acc[|acc| - 1], rest[0])
      case Some(m) => Sweep(acc[..|acc| - 1] + [m], rest[1..])
      case None => Sweep(acc + [rest[0]], rest[1..])
  }

  /** A sweep keeps the total area. */
  lemma {:induction false} SweepArea(acc: seq<Rect>, rest: seq<Rect>)
    requires |acc| >= 1
    ensures TotalArea(Sweep(acc, rest)) == TotalArea(acc) + TotalArea(rest)
    decreases |rest|
  {
    if |rest| > 0 {
      assert rest == [rest[0]] + rest[1..];
      TotalAreaConcat([rest[0]], rest[1..]);
      assert TotalArea([rest[0]]) == Area(rest[0]) by {
        assert [rest[0]][..0] == [];
      }
      var n := |acc| - 1;
      match Merge(acc[n], rest[0])
      case Some(m) =>
        SweepArea(acc[..n] + [m], rest[1..]);
        assert (acc[..n] + [m])[..n] == acc[..n];
        assert acc[..n + 1] == acc;
      case None =>
        SweepArea(acc + [rest[0]], rest[1..]);
        assert (acc + [rest[0]])[..|acc|] == acc;
    }
  }

  /** A sweep covers exactly the cells its input covers. */
  lemma {:induction false} SweepCovered(acc: seq<Rect>, rest: seq<Rect>, px: int, py: int)
    requires |acc| >= 1
    ensures Covered(Sweep(acc, rest), px, py) <==> Covered(acc, px, py) || Covered(rest, px, py)
    decreases |rest|
  {
    if |rest| > 0 {
      assert rest == [rest[0]] + rest[1..];
      CoveredConcat([rest[0]], rest[1..], px, py);
      CoveredSingleton(rest[0], px, py);
      var n := |acc| - 1;
      assert acc == acc[..n] + [acc[n]];
      CoveredConcat(acc[..n], [acc[n]], px, py);
      CoveredSingleton(acc[n], px, py);
      match Merge(acc[n], rest[0])
      case Some(m) =>
        SweepCovered(acc[..n] + [m], rest[1..], px, py);
        CoveredConcat(acc[..n], [m], px, py);
        CoveredSingleton(m, px, py);
      case None =>
        SweepCovered(acc + [rest[0]], rest[1..], px, py);
        CoveredConcat(acc, [rest[0]], px, py);
    }
  }

  /**
    * A sweep that merges nothing returns its input, and then no rectangle of
    * `rest` merges with its predecessor.
    */
  lemma {:induction false} SweepNoMerge(acc: seq<Rect>, rest: seq<Rect>)
    requires |acc| >= 1 && NoMergeableNeighbours(acc)
    ensures |Sweep(acc, rest)| == |acc| + |rest| <==> Sweep(acc, rest) == acc + rest && NoMergeableNeighbours(acc + rest)
    decreases |rest|
  {
    if |rest| == 0 {
      assert acc + rest == acc;
    } else {
      var n := |acc| - 1;
      match Merge(acc[n], rest[0])
      case Some(m) =>
        assert |Sweep(acc, rest)| < |acc| + |rest|;
        assert (acc + rest)[n] == acc[n] && (acc + rest)[n + 1] == rest[0];
      case None =>
        var acc' := acc + [rest[0]];
        assert NoMergeableNeighbours(acc') by {
          forall i | 1 <= i < |acc'| ensures Merge(acc'[i - 1], acc'[i]).None? {
            if i < |acc| {
              assert acc'[i - 1] == acc[i - 1] && acc'[i] == acc[i];
            }
          }
        }
        SweepNoMerge(acc', rest[1..]);
        assert acc' + rest[1..] == acc + rest;
    }
  }

  /** Order by x, then y: `a.x.cmp(&b.x).then(a.y.cmp(&b.y))`. */
  predicate ByColumn(a: Rect, b: Rect) {
    a.x < b.x || (a.x == b.x && a.y <= b.y)
  }

  /** Order by y, then x: `a.y.cmp(&b.y).then(a.x.cmp(&b.x))`. */
  predicate ByRow(a: Rect, b: Rect) {
    a.y < b.y || (a.y == b.y && a.x <= b.x)
  }

  lemma OrdersTotal()
    ensures TotalPreorder(ByColumn) && TotalPreorder(ByRow)
  {
  }

  /** Sort with `le`, then sweep. */
  function SortAndSweep(rs: seq<Rect>, le: (Rect, Rect) -> bool): (r: seq<Rect>)
    requires |rs| >= 1 && TotalPreorder(le)
    ensures 1 <= |r| <= |rs|
  {
    var sorted := SortBy(rs, le);
    Sweep([sorted[0]], sorted[1..])
  }

  /** One iteration of the `optimize` loop: a column sweep, then a row sweep. */
  function Pass(rs: seq<Rect>): (r: seq<Rect>)
    requires |rs| >= 1
    ensures 1 <= |r| <= |rs|
  {
    OrdersTotal();
    SortAndSweep(SortAndSweep(rs, ByColumn), ByRow)
  }

  /** Sorting and sweeping keeps the area. */
  lemma SortAndSweepArea(rs: seq<Rect>, le: (Rect, Rect) -> bool)
    requires |rs| >= 1 && TotalPreorder(le)
    ensures TotalArea(SortAndSweep(rs, le)) == TotalArea(rs)
  {
    SweepPermutationArea(SortBy(rs, le), rs);
  }

  /** Sweeping a rearrangement of `rs` keeps the area of `rs`. */
  lemma SweepPermutationArea(sorted: seq<Rect>, rs: seq<Rect>)
    requires |sorted| >= 1 && multiset(sorted) == multiset(rs)
    ensures TotalArea(Sweep([sorted[0]], sorted[1..])) == TotalArea(rs)
  {
    assert sorted == [sorted[0]] + sorted[1..];
    SweepArea([sorted[0]], sorted[1..]);
    TotalAreaConcat([sorted[0]], sorted[1..]);
    TotalAreaPermutation(sorted, rs);
  }

  /** Sorting and sweeping keeps the covered cells. */
  lemma SortAndSweepCovered(rs: seq<Rect>, le: (Rect, Rect) -> bool, px: int, py: int)
    requires |rs| >= 1 && TotalPreorder(le)
    ensures Covered(SortAndSweep(rs, le), px, py) <==> Covered(rs, px, py)
  {
    SweepPermutationCovered(SortBy(rs, le), rs, px, py);
  }

  /** Sweeping a rearrangement of `rs` keeps the cells `rs` covers. */
  lemma SweepPermutationCovered(sorted: seq<Rect>, rs: seq<Rect>, px: int, py: int)
    requires |sorted| >= 1 && multiset(sorted) == multiset(rs)
    ensures Covered(Sweep([sorted[0]], sorted[1..]), px, py) <==> Covered(rs, px, py)
  {
    assert sorted == [sorted[0]] + sorted[1..];
    SweepCovered([sorted[0]], sorted[1..], px, py);
    CoveredConcat([sorted[0]], sorted[1..], px, py);
    CoveredPermutation(sorted, rs, px, py);
  }

  /**
    * When sorting and sweeping merges nothing, the result is the sorted
    * list, it is ordered by `le` and no neighbours in it can be merged.
    */
  lemma SortAndSweepStable(rs: seq<Rect>, le: (Rect, Rect) -> bool)
    requires |rs| >= 1 && TotalPreorder(le)
    ensures |SortAndSweep(rs, le)| == |rs| <==> SortAndSweep(rs, le) == SortBy(rs, le) && NoMergeableNeighbours(SortBy(rs, le))
  {
    var sorted := SortBy(rs, le);
    SweepNoMerge([sorted[0]], sorted[1..]);
    assert [sorted[0]] + sorted[1..] == sorted;
  }

  /**
    * A pass that leaves the count unchanged merged nothing in either sweep:
    * its column sweep returned the rectangles in (x, y) order with no
    * mergeable neighbour in that order, and its row sweep returned them in
    * (y, x) order with no mergeable neighbour in that order.
    */
  lemma PassFixpoint(rs: seq<Rect>)
    requires |rs| >= 1
    ensures |Pass(rs)| == |rs| ==>
      && multiset(Pass(rs)) == multiset(rs)
      && SortedBy(Pass(rs), ByRow)
      && NoMergeableNeighbours(Pass(rs))
    ensures |Pass(rs)| == |rs| ==>
      && multiset(SortAndSweep(rs, ByColumn)) == multiset(rs)
      && SortedBy(SortAndSweep(rs, ByColumn), ByColumn)
      && NoMergeableNeighbours(SortAndSweep(rs, ByColumn))
  {
    OrdersTotal();
    var first := SortAndSweep(rs, ByColumn);
    if |Pass(rs)| == |rs| {
      SortAndSweepStable(rs, ByColumn);
      SortAndSweepStable(first, ByRow);
    }
  }

  /** A pass keeps the area and the covered cells. */
  lemma PassKeeps(rs: seq<Rect>)
    requires |rs| >= 1
    ensures TotalArea(Pass(rs)) == TotalArea(rs)
    ensures forall px, py :: Covered(Pass(rs), px, py) <==> Covered(rs, px, py)
  {
    OrdersTotal();
    var first := SortAndSweep(rs, ByColumn);
    SortAndSweepArea(rs, ByColumn);
    SortAndSweepArea(first, ByRow);
    forall px, py ensures Covered(Pass(rs), px, py) <==> Covered(rs, px, py) {
      SortAndSweepCovered(rs, ByColumn, px, py);
      SortAndSweepCovered(first, ByRow, px, py);
    }
  }

  // ---------------------------------------------------------------------
  // Tilings: the lists `decompose` hands to `optimize`
  // ---------------------------------------------------------------------

  /** No two rectangles of `rs`, neighbours in the list or not, can be merged. */
  ghost predicate Irreducible(rs: seq<Rect>) {
    forall i, j :: 0 <= i < j < |rs| ==> Merge(rs[i], rs[j]).None?
  }

  /** A rearrangement of a tiling is a tiling. */
  lemma TilingPermutation(a: seq<Rect>, b: seq<Rect>)
    requires Tiling(a) && multiset(a) == multiset(b)
    ensures Tiling(b)
  {
    assert NoDuplicates(a) by {
      forall i, j | 0 <= i < j < |a| ensures a[i] != a[j] {
        assert Disjoint(a[i], a[j]);
      }
    }
    NoDuplicatesPermutation(a, b);
    forall i | 0 <= i < |b| ensures b[i].width >= 1 && b[i].height >= 1 {
      assert b[i] in multiset(a);
      var k :| 0 <= k < |a| && a[k] == b[i];
    }
    forall i, j | 0 <= i < |b| && 0 <= j < |b| && i != j ensures Disjoint(b[i], b[j]) {
      if i < j {
        assert b[i] != b[j];
      } else {
        assert b[j] != b[i];
      }
      assert b[i] in multiset(a) && b[j] in multiset(a);
      var k :| 0 <= k < |a| && a[k] == b[i];
      var l :| 0 <= l < |a| && a[l] == b[j];
    }
  }

  /** A rectangle separated from both halves of a merge is separated from their union. */
  lemma DisjointFromMerged(c: Rect, a: Rect, b: Rect)
    requires AllSolid([c, a, b])
    requires Merge(a, b).Some? && Disjoint(c, a) && Disjoint(c, b)
    ensures Merge(a, b).value.width >= 1 && Merge(a, b).value.height >= 1
    ensures Disjoint(c, Merge(a, b).value) && Disjoint(Merge(a, b).value, c)
  {
    var m := Merge(a, b).value;
    assert [c, a, b][0] == c && [c, a, b][1] == a && [c, a, b][2] == b;
    DisjointIffNoCommonCell(c, a);
    DisjointIffNoCommonCell(c, b);
    DisjointIffNoCommonCell(c, m);
  }

  /** Replacing the two rectangles a merge joins by their union keeps a tiling. */
  lemma MergedTiling(acc: seq<Rect>, rest: seq<Rect>, m: Rect)
    requires |acc| >= 1 && |rest| >= 1 && Tiling(acc + rest)
    requires Merge(acc[|acc| - 1], rest[0]).Some? && Merge(acc[|acc| - 1], rest[0]).value == m
    ensures Tiling(acc[..|acc| - 1] + [m] + rest[1..])
  {
    var n := |acc| - 1;
    var t := acc + rest;
    var t' := acc[..n] + [m] + rest[1..];
    assert t[n] == acc[n] && t[n + 1] == rest[0];
    assert forall i :: 0 <= i < |t'| && i != n ==> t'[i] == t[if i < n then i else i + 1];
    forall i | 0 <= i < |t'| && i != n
      ensures t'[i].width >= 1 && t'[i].height >= 1
      ensures Disjoint(t'[i], m) && Disjoint(m, t'[i])
    {
      var k := if i < n then i else i + 1;
      assert Disjoint(t[k], t[n]) && Disjoint(t[k], t[n + 1]);
      assert AllSolid([t[k], acc[n], rest[0]]);
      DisjointFromMerged(t[k], acc[n], rest[0]);
    }
    assert m.width >= 1 && m.height >= 1;
  }

  /** A sweep over a tiling yields a tiling. */
  lemma {:induction false} SweepTiling(acc: seq<Rect>, rest: seq<Rect>)
    requires |acc| >= 1 && Tiling(acc + rest)
    ensures Tiling(Sweep(acc, rest))
    decreases |rest|
  {
    if |rest| > 0 {
      var n := |acc| - 1;
      match Merge(acc[n], rest[0])
      case Some(m) =>
        MergedTiling(acc, rest, m);
        assert acc[..n] + [m] + rest[1..] == (acc[..n] + [m]) + rest[1..];
        SweepTiling(acc[..n] + [m], rest[1..]);
      case None =>
        assert (acc + [rest[0]]) + rest[1..] == acc + rest;
        SweepTiling(acc + [rest[0]], rest[1..]);
    } else {
      assert acc + rest == acc;
    }
  }

  /** Sorting and sweeping a tiling yields a tiling. */
  lemma SortAndSweepTiling(rs: seq<Rect>, le: (Rect, Rect) -> bool)
    requires |rs| >= 1 && TotalPreorder(le) && Tiling(rs)
    ensures Tiling(SortAndSweep(rs, le))
  {
    var sorted := SortBy(rs, le);
    TilingPermutation(rs, sorted);
    assert [sorted[0]] + sorted[1..] == sorted;
    SweepTiling([sorted[0]], sorted[1..]);
  }

  /**
    * In a tiling sorted by (y, x), a rectangle directly right of another on
    * the same rows comes right after it: anything sorted between the two
    * would share a cell with one of them.
    */
  lemma RowAdjacent(s: seq<Rect>, p: nat, q: nat)
    requires Tiling(s) && SortedBy(s, ByRow) && p < |s| && q < |s|
    ensures s[p].y == s[q].y && s[p].height == s[q].height && s[p].x + s[p].width == s[q].x ==> q == p + 1
  {
    assert s[p].width >= 1 && s[p].height >= 1;
    if q < p {
      assert ByRow(s[q], s[p]);
    }
    if p + 1 < q {
      var c := s[p + 1];
      assert c.width >= 1 && c.height >= 1;
      assert ByRow(s[p], c) && ByRow(c, s[q]);
      assert Disjoint(s[p], c) && Disjoint(c, s[q]);
    }
  }

  /**
    * In a tiling sorted by (x, y), a rectangle directly below another in the
    * same columns comes right after it.
    */
  lemma ColumnAdjacent(s: seq<Rect>, p: nat, q: nat)
    requires Tiling(s) && SortedBy(s, ByColumn) && p < |s| && q < |s|
    ensures s[p].x == s[q].x && s[p].width == s[q].width && s[p].y + s[p].height == s[q].y ==> q == p + 1
  {
    assert s[p].width >= 1 && s[p].height >= 1;
    if q < p {
      assert ByColumn(s[q], s[p]);
    }
    if p + 1 < q {
      var c := s[p + 1];
      assert c.width >= 1 && c.height >= 1;
      assert ByColumn(s[p], c) && ByColumn(c, s[q]);
      assert Disjoint(s[p], c) && Disjoint(c, s[q]);
    }
  }

  /** A row-sorted tiling whose row sweep merged nothing has no two rectangles side by side. */
  lemma NoHorizontalPair(s: seq<Rect>, i: nat, j: nat)
    requires Tiling(s) && SortedBy(s, ByRow) && NoMergeableNeighbours(s)
    requires i < |s| && j < |s|
    ensures !StackedHorizontally(s[i], s[j])
  {
    RowAdjacent(s, i, j);
    RowAdjacent(s, j, i);
    if i + 1 < |s| {
      assert Merge(s[i], s[i + 1]).None?;
    }
    if j + 1 < |s| {
      assert Merge(s[j], s[j + 1]).None?;
    }
  }

  /** A column-sorted tiling whose column sweep merged nothing has no two rectangles stacked. */
  lemma NoVerticalPair(s: seq<Rect>, i: nat, j: nat)
    requires Tiling(s) && SortedBy(s, ByColumn) && NoMergeableNeighbours(s)
    requires i < |s| && j < |s|
    ensures !StackedVertically(s[i], s[j])
  {
    ColumnAdjacent(s, i, j);
    ColumnAdjacent(s, j, i);
    if i + 1 < |s| {
      assert Merge(s[i], s[i + 1]).None?;
    }
    if j + 1 < |s| {
      assert Merge(s[j], s[j + 1]).None?;
    }
  }

  /**
    * When a pass over a tiling merges nothing, no two of its rectangles can
    * be merged at all: a vertical pair would have been neighbours after the
    * column sort, a horizontal pair after the row sort.
    */
  lemma FixpointIrreducible(rs: seq<Rect>)
    requires |rs| >= 1 && Tiling(rs) && |Pass(rs)| == |rs|
    ensures Irreducible(Pass(rs))
  {
    OrdersTotal();
    PassFixpoint(rs);
    var cols := SortAndSweep(rs, ByColumn);
    var out := Pass(rs);
    TilingPermutation(rs, cols);
    TilingPermutation(rs, out);
    forall i, j | 0 <= i < j < |out| ensures Merge(out[i], out[j]).None? {
      NoHorizontalPair(out, i, j);
      assert out[i] in multiset(cols) && out[j] in multiset(cols);
      var p :| 0 <= p < |cols| && cols[p] == out[i];
      var q :| 0 <= q < |cols| && cols[q] == out[j];
      NoVerticalPair(cols, p, q);
    }
  }

  /** A pass keeps a tiling, and a pass over a tiling that merges nothing leaves an irreducible list. */
  lemma PassTiling(rs: seq<Rect>)
    requires |rs| >= 1
    ensures Tiling(rs) ==> Tiling(Pass(rs))
    ensures Tiling(rs) && |Pass(rs)| == |rs| ==> Irreducible(Pass(rs))
  {
    if Tiling(rs) {
      OrdersTotal();
      SortAndSweepTiling(rs, ByColumn);
      SortAndSweepTiling(SortAndSweep(rs, ByColumn), ByRow);
      if |Pass(rs)| == |rs| {
        FixpointIrreducible(rs);
      }
    }
  }

  /** Everything `optimize` promises about the list `out` it leaves of `rs`. */
  ghost predicate OptimizedFrom(rs: seq<Rect>, out: seq<Rect>) {
    && |rs| >= 1
    && 1 <= |out| <= |rs|
    && (|rs| == 1 ==> out == rs)
    && TotalArea(out) == TotalArea(rs)
    && (forall px, py :: Covered(out, px, py) <==> Covered(rs, px, py))
    && (|rs| >= 2 ==> SortedBy(out, ByRow) && NoMergeableNeighbours(out))
    && (Tiling(rs) ==> Tiling(out) && Irreducible(out))
  }

  /**
    * `optimize`: a one-element list is returned as it is; otherwise passes
    * repeat until one leaves the count unchanged. The result never has more
    * rectangles than the input, keeps the total area and the covered cells,
    * and ends in (y, x) order with no mergeable neighbours. On a tiling (the
    * lists `decompose` produces) the result is a tiling in which no two
    * rectangles can be merged, neighbours or not. The source reads
    * `instructions[0]`, so the list must not be empty.
    */
  method Optimize(rs: seq<Rect>) returns (out: seq<Rect>)
    requires |rs| >= 1
    ensures |rs| == 1 ==> out == rs
    ensures 1 <= |out| <= |rs|
    ensures TotalArea(out) == TotalArea(rs)
    ensures forall px, py :: Covered(out, px, py) <==> Covered(rs, px, py)
    ensures |rs| >= 2 ==> SortedBy(out, ByRow) && NoMergeableNeighbours(out)
    ensures Tiling(rs) ==> Tiling(out) && Irreducible(out)
  {
    if |rs| == 1 {
      return rs;
    }
    out := rs;
    var done := false;
    while !done
      invariant 1 <= |out| <= |rs|
      invariant TotalArea(out) == TotalArea(rs)
      invariant forall px, py :: Covered(out, px, py) <==> Covered(rs, px, py)
      invariant done ==> SortedBy(out, ByRow) && NoMergeableNeighbours(out)
      invariant Tiling(rs) ==> Tiling(out)
      invariant done && Tiling(rs) ==> Irreducible(out)
      decreases !done, |out|
    {
      var startingSize := |out|;
      PassKeeps(out);
      PassFixpoint(out);
      PassTiling(out);
      var next := Pass(out);
      done := |next| == startingSize;
      out := next;
    }
  }
}

=== FILE: quadtree.dfy ===
/**
  * Quad-tree decomposition of a quantized image
  * (crates/autopixel/src/quadtree.rs, `Decomposition` and `decompose`).
  *
  * Colours are processed in precedence order. The first one takes the whole
  * canvas; every later one covers its pixels with aligned power-of-two
  * squares that hold no claimed pixel and at least one pixel of the colour,
  * found by a depth-first work stack. A claim bitmap records which pixels a
  * colour has taken; bits are only ever set.
  */
module QuadTree {
  import opened Wrappers
  import opened Colors
  import opened Rectangles
  import opened Arith

  // ---------------------------------------------------------------------
  // Row-major indexing
  // ---------------------------------------------------------------------

  /**
    * `Decomposition::index`: the flat position of cell (x, y) on a canvas
    * `width` wide, rows stored one after another. Written row by row so the
    * verifier does not have to reason about products; `IndexRowMajor` gives
    * the closed form `y * width + x`.
    */
  function Index(width: nat, x: nat, y: nat): nat
    decreases y
  {
    if y == 0 then x else width + Index(width, x, y - 1)
  }

  lemma {:induction false} IndexRowMajor(width: nat, x: nat, y: nat)
    ensures Index(width, x, y) == y * width + x
    decreases y
  {
    if y > 0 {
      IndexRowMajor(width, x, y - 1);
    }
  }

  /** Every cell of a `width` x `height` canvas has a position inside the buffer. */
  lemma IndexBounds(width: nat, height: nat, x: nat, y: nat)
    requires x < width && y < height
    ensures Index(width, x, y) < width * height
  {
    IndexRowMajor(width, x, y);
    MulMonotone(y + 1, width, height, width);
  }

  /** The colour of every cell is one of the buffer's colours. */
  lemma PixelInBuffer(pixels: seq<Color>, width: nat, height: nat, x: nat, y: nat)
    requires |pixels| == width * height && x < width && y < height
    ensures Pixel(pixels, width, height, x, y) in pixels
  {
    IndexBounds(width, height, x, y);
    assert pixels[Index(width, x, y)] == Pixel(pixels, width, height, x, y);
  }

  /** Distinct cells have distinct positions. */
  lemma {:induction false} IndexInjective(width: nat, x1: nat, y1: nat, x2: nat, y2: nat)
    requires x1 < width && x2 < width
    ensures Index(width, x1, y1) == Index(width, x2, y2) <==> x1 == x2 && y1 == y2
    decreases y1 + y2
  {
    // A position in a later row is at least `width`, past every position of row 0.
    if y1 > 0 && y2 > 0 {
      IndexInjective(width, x1, y1 - 1, x2, y2 - 1);
    }
  }

  /** The colour of cell (x, y) of a row-major pixel buffer. */
  function Pixel(pixels: seq<Color>, width: nat, height: nat, x: nat, y: nat): Color
    requires |pixels| == width * height && x < width && y < height
  {
    IndexBounds(width, height, x, y);
    pixels[Index(width, x, y)]
  }

  // ---------------------------------------------------------------------
  // Decomposition state
  // ---------------------------------------------------------------------

  /** `Decomposition`: the canvas, its pixels row by row, and the claim bitmap. */
  datatype Decomposition = Decomposition(dims: Rect, pixels: seq<Color>, bitmap: seq<bool>)

  /** The canvas sits at the origin and both buffers hold one entry per cell. */
  predicate Valid(d: Decomposition) {
    && d.dims.x == 0 && d.dims.y == 0
    && |d.pixels| == d.dims.width * d.dims.height
    && |d.bitmap| == d.dims.width * d.dims.height
  }

  /** `Decomposition::new`: nothing is claimed yet. */
  function NewDecomposition(width: nat, height: nat, pixels: seq<Color>): (d: Decomposition)
    requires |pixels| == width * height
    ensures Valid(d) && d.dims == Rect(0, 0, width, height) && d.pixels == pixels
    ensures forall x: nat, y: nat :: x < width && y < height ==> !Claimed(d, x, y)
  {
    var d := Decomposition(Rect(0, 0, width, height), pixels, seq(width * height, _ => false));
    assert forall x: nat, y: nat :: x < width && y < height ==> !Claimed(d, x, y) by {
      forall x: nat, y: nat | x < width && y < height ensures !Claimed(d, x, y) {
        IndexBounds(width, height, x, y);
      }
    }
    d
  }

  /** The cell (x, y) lies on the canvas. */
  predicate OnCanvas(d: Decomposition, x: nat, y: nat) {
    x < d.dims.width && y < d.dims.height
  }

  /** The colour of cell (x, y). */
  function ColorAt(d: Decomposition, x: nat, y: nat): Color
    requires Valid(d) && OnCanvas(d, x, y)
  {
    Pixel(d.pixels, d.dims.width, d.dims.height, x, y)
  }

  /** The claim bit of cell (x, y). */
  predicate Claimed(d: Decomposition, x: nat, y: nat)
    requires Valid(d) && OnCanvas(d, x, y)
  {
    IndexBounds(d.dims.width, d.dims.height, x, y);
    d.bitmap[Index(d.dims.width, x, y)]
  }

  /** Sets the claim bit of one cell; no other bit changes. */
  function Claim(d: Decomposition, x: nat, y: nat): (d': Decomposition)
    requires Valid(d) && OnCanvas(d, x, y)
    ensures Valid(d') && d'.dims == d.dims && d'.pixels == d.pixels
    ensures forall px: nat, py: nat :: OnCanvas(d, px, py) ==>
      (Claimed(d', px, py) <==> Claimed(d, px, py) || (px == x && py == y))
  {
    IndexBounds(d.dims.width, d.dims.height, x, y);
    var d' := d.(bitmap := d.bitmap[Index(d.dims.width, x, y) := true]);
    assert forall px: nat, py: nat :: OnCanvas(d, px, py) ==>
      (Claimed(d', px, py) <==> Claimed(d, px, py) || (px == x && py == y))
    by {
      forall px: nat, py: nat | OnCanvas(d, px, py)
        ensures Claimed(d', px, py) <==> Claimed(d, px, py) || (px == x && py == y)
      {
        IndexBounds(d.dims.width, d.dims.height, px, py);
        IndexInjective(d.dims.width, px, py, x, y);
      }
    }
    d'
  }

  /** Every cell of `r` on the canvas is unclaimed. */
  ghost predicate NoneClaimed(d: Decomposition, r: Rect)
    requires Valid(d)
  {
    forall x: nat, y: nat :: OnCanvas(d, x, y) && InRect(r, x, y) ==> !Claimed(d, x, y)
  }

  /** Some cell of `r` on the canvas has colour `c`. */
  ghost predicate HasColor(d: Decomposition, r: Rect, c: Color)
    requires Valid(d)
  {
    exists x: nat, y: nat :: OnCanvas(d, x, y) && InRect(r, x, y) && ColorAt(d, x, y) == c
  }

  /**
    * `Decomposition::update_bitmap`: claims exactly the cells of `rect` that
    * have colour `c`. The rectangle must already lie on the canvas. No bit is
    * cleared and no bit outside `rect` changes.
    */
  method UpdateBitmap(d: Decomposition, rect: Rect, c: Color) returns (d': Decomposition)
    requires Valid(d)
    requires Crop(rect, d.dims) == Some(rect)
    ensures Valid(d') && d'.dims == d.dims && d'.pixels == d.pixels
    ensures forall x: nat, y: nat :: OnCanvas(d, x, y) ==>
      (Claimed(d', x, y) <==> Claimed(d, x, y) || (InRect(rect, x, y) && ColorAt(d, x, y) == c))
  {
    d' := d;
    var y := rect.y;
    while y < rect.y + rect.height
      invariant rect.y <= y <= rect.y + rect.height
      invariant Valid(d') && d'.dims == d.dims && d'.pixels == d.pixels
      invariant forall px: nat, py: nat :: OnCanvas(d, px, py) ==>
        (Claimed(d', px, py) <==> Claimed(d, px, py) || (InRect(rect, px, py) && py < y && ColorAt(d, px, py) == c))
    {
      // The source walks the flat range index(rect.x, y)..index(rect.x + rect.width, y);
      // cell (x, y) sits at position index(rect.x, y) + (x - rect.x) of it.
      var x := rect.x;
      while x < rect.x + rect.width
        invariant rect.x <= x <= rect.x + rect.width
        invariant Valid(d') && d'.dims == d.dims && d'.pixels == d.pixels
        invariant forall px: nat, py: nat :: OnCanvas(d, px, py) ==>
          (Claimed(d', px, py) <==>
            Claimed(d, px, py) || (InRect(rect, px, py) && (py < y || (py == y && px < x)) && ColorAt(d, px, py) == c))
      {
        if ColorAt(d', x, y) == c {
          d' := Claim(d', x, y);
        }
        x := x + 1;
      }
      y := y + 1;
    }
  }

  /** `self.bitmap[start..end].iter().any(|p| *p)` for row `y`, columns `x0..x1`. */
  method AnyClaimedInRow(d: Decomposition, x0: nat, x1: nat, y: nat) returns (any: bool)
    requires Valid(d) && x0 <= x1 <= d.dims.width && y < d.dims.height
    ensures any <==> exists x: nat :: x0 <= x < x1 && Claimed(d, x, y)
  {
    any := false;
    var x := x0;
    while x < x1
      invariant x0 <= x <= x1
      invariant any <==> exists px: nat :: x0 <= px < x && Claimed(d, px, y)
    {
      if Claimed(d, x, y) {
        any := true;
      }
      x := x + 1;
    }
  }

  /** `self.pixels[start..end].iter().any(|p| *p == *color)` for row `y`, columns `x0..x1`. */
  method AnyColorInRow(d: Decomposition, x0: nat, x1: nat, y: nat, c: Color) returns (any: bool)
    requires Valid(d) && x0 <= x1 <= d.dims.width && y < d.dims.height
    ensures any <==> exists x: nat :: x0 <= x < x1 && ColorAt(d, x, y) == c
  {
    any := false;
    var x := x0;
    while x < x1
      invariant x0 <= x <= x1
      invariant any <==> exists px: nat :: x0 <= px < x && ColorAt(d, px, y) == c
    {
      if ColorAt(d, x, y) == c {
        any := true;
      }
      x := x + 1;
    }
  }

  /**
    * `Decomposition::check_instruction`: false when `rect` lies off the
    * canvas; otherwise true exactly when its on-canvas part holds no claimed
    * cell and at least one cell of colour `c`.
    */
  method CheckInstruction(d: Decomposition, rect: Rect, c: Color) returns (ok: bool)
    requires Valid(d)
    ensures ok <==> (
      && Crop(rect, d.dims).Some?
      && NoneClaimed(d, Crop(rect, d.dims).value)
      && HasColor(d, Crop(rect, d.dims).value, c))
  {
    var cropped := Crop(rect, d.dims);
    if cropped.None? {
      return false;
    }
    var r := cropped.value;
    var containsColor := false;
    var y := r.y;
    while y < r.y + r.height
      invariant r.y <= y <= r.y + r.height
      invariant forall px: nat, py: nat :: OnCanvas(d, px, py) && InRect(r, px, py) && py < y ==> !Claimed(d, px, py)
      invariant containsColor <==>
        exists px: nat, py: nat :: OnCanvas(d, px, py) && InRect(r, px, py) && py < y && ColorAt(d, px, py) == c
    {
      var claimed := AnyClaimedInRow(d, r.x, r.x + r.width, y);
      if claimed {
        var px: nat :| r.x <= px < r.x + r.width && Claimed(d, px, y);
        assert OnCanvas(d, px, y) && InRect(r, px, y);
        return false;
      }
      var colored := AnyColorInRow(d, r.x, r.x + r.width, y, c);
      if colored {
        var px: nat :| r.x <= px < r.x + r.width && ColorAt(d, px, y) == c;
        assert OnCanvas(d, px, y) && InRect(r, px, y);
        containsColor := true;
      }
      y := y + 1;
    }
    return containsColor;
  }

  // ---------------------------------------------------------------------
  // The work stack of one colour
  // ---------------------------------------------------------------------

  /** `u32::next_power_of_two` from the candidate `p` upwards. */
  function NextPow2From(p: nat, n: nat): (r: nat)
    requires IsPow2(p) && (p == 1 || p / 2 < n)
    ensures IsPow2(r) && r >= n && r >= 1 && (r == 1 || r / 2 < n)
    decreases if p >= n then 0 else n - p
  {
    if p >= n then p else NextPow2From(2 * p, n)
  }

  /** `u32::next_power_of_two`: the smallest power of two that is at least `n`. */
  function NextPow2(n: nat): (r: nat)
    ensures IsPow2(r) && r >= n && r >= 1
    ensures r == 1 || r / 2 < n
  {
    NextPow2From(1, n)
  }

  /** A bound on the number of work-stack pops a square of side `side` can cause. */
  function Weight(side: nat): nat
    decreases side
  {
    if side <= 1 then 1 else 1 + 4 * Weight(side / 2)
  }

  function StackWeight(work: seq<Rect>): nat {
    if |work| == 0 then 0 else StackWeight(work[..|work| - 1]) + Weight(work[|work| - 1].width)
  }

  lemma {:induction false} StackWeightAppend(a: seq<Rect>, b: seq<Rect>)
    ensures StackWeight(a + b) == StackWeight(a) + StackWeight(b)
    decreases |b|
  {
    if |b| > 0 {
      assert (a + b)[..|a + b| - 1] == a + b[..|b| - 1];
      StackWeightAppend(a, b[..|b| - 1]);
    } else {
      assert a + b == a;
    }
  }

  /** Every entry is a power-of-two square, and no two entries share a cell. */
  ghost predicate StackShape(work: seq<Rect>) {
    && (forall i :: 0 <= i < |work| ==> work[i].width == work[i].height && IsPow2(work[i].width))
    && PairwiseDisjoint(work)
  }


  /** Every entry of `a` is disjoint from every entry of `b`. */
  ghost predicate AllDisjoint(a: seq<Rect>, b: seq<Rect>) {
    forall i, j :: 0 <= i < |a| && 0 <= j < |b| ==> Disjoint(a[i], b[j])
  }

  /** Every accepted rectangle lies on the canvas, has a cell and holds colour `c` in `d`. */
  ghost predicate AcceptedOk(d: Decomposition, acc: seq<Rect>, c: Color)
    requires Valid(d)
  {
    forall i :: 0 <= i < |acc| ==>
      && Crop(acc[i], d.dims) == Some(acc[i])
      && acc[i].width >= 1 && acc[i].height >= 1
      && HasColor(d, acc[i], c)
  }

  /** `d` has the canvas and pixels of `d0`. */
  ghost predicate SameCanvas(d0: Decomposition, d: Decomposition) {
    Valid(d0) && Valid(d) && d.dims == d0.dims && d.pixels == d0.pixels
  }

  /** The claims added to `d0` are exactly the `c`-cells that `acc` covers. */
  ghost predicate ClaimsMatch(d0: Decomposition, d: Decomposition, c: Color, acc: seq<Rect>)
    requires SameCanvas(d0, d)
  {
    forall x: nat, y: nat :: OnCanvas(d0, x, y) ==>
      (Claimed(d, x, y) <==> Claimed(d0, x, y) || (ColorAt(d0, x, y) == c && Covered(acc, x, y)))
  }

  /** No rectangle of `acc` holds a cell claimed in `d0`. */
  ghost predicate AllFresh(d0: Decomposition, acc: seq<Rect>)
    requires Valid(d0)
  {
    forall i :: 0 <= i < |acc| ==> NoneClaimed(d0, acc[i])
  }

  /** Every `c`-cell is claimed in `d` or lies in a square still on the stack. */
  ghost predicate Pending(d0: Decomposition, d: Decomposition, c: Color, work: seq<Rect>)
    requires SameCanvas(d0, d)
  {
    forall x: nat, y: nat :: OnCanvas(d0, x, y) && ColorAt(d0, x, y) == c ==>
      Claimed(d, x, y) || Covered(work, x, y)
  }

  /**
    * What holds between two pops of the work stack while colour `c` is
    * processed, starting from `d0`.
    */
  ghost predicate ColorInv(d0: Decomposition, d: Decomposition, c: Color, acc: seq<Rect>, work: seq<Rect>) {
    && SameCanvas(d0, d)
    && ClaimsMatch(d0, d, c, acc)
    && AllFresh(d0, acc)
    && AcceptedOk(d0, acc, c)
    && Pending(d0, d, c, work)
    && StackShape(work) && PairwiseDisjoint(acc) && AllDisjoint(work, acc)
  }

  lemma ColorInvInit(d0: Decomposition, c: Color, square: Rect)
    requires Valid(d0)
    requires square.x == 0 && square.y == 0 && square.width == square.height && IsPow2(square.width)
    requires square.width >= d0.dims.width && square.width >= d0.dims.height
    ensures ColorInv(d0, d0, c, [], [square])
  {
    forall x: nat, y: nat | OnCanvas(d0, x, y) ensures Covered([square], x, y) {
      CoveredSingleton(square, x, y);
    }
  }

  /** The `c`-cells of an accepted `r` join the claims. */
  lemma AcceptClaims(d0: Decomposition, d: Decomposition, d': Decomposition, c: Color, acc: seq<Rect>, r: Rect)
    requires SameCanvas(d0, d) && SameCanvas(d0, d')
    requires ClaimsMatch(d0, d, c, acc)
    requires forall x: nat, y: nat :: OnCanvas(d0, x, y) ==>
      (Claimed(d', x, y) <==> Claimed(d, x, y) || (InRect(r, x, y) && ColorAt(d0, x, y) == c))
    ensures ClaimsMatch(d0, d', c, acc + [r])
  {
    forall x: nat, y: nat | OnCanvas(d0, x, y)
      ensures Claimed(d', x, y) <==> Claimed(d0, x, y) || (ColorAt(d0, x, y) == c && Covered(acc + [r], x, y))
    {
      CoveredConcat(acc, [r], x, y);
      CoveredSingleton(r, x, y);
    }
  }

  /** An accepted `r` held no cell claimed before the colour started. */
  lemma AcceptFresh(d0: Decomposition, d: Decomposition, c: Color, acc: seq<Rect>, r: Rect)
    requires SameCanvas(d0, d) && ClaimsMatch(d0, d, c, acc) && AllFresh(d0, acc)
    requires NoneClaimed(d, r)
    ensures AllFresh(d0, acc + [r])
  {
    forall x: nat, y: nat | OnCanvas(d0, x, y) && InRect(r, x, y) ensures !Claimed(d0, x, y) {
      assert !Claimed(d, x, y);
    }
    assert (acc + [r])[|acc|] == r;
    assert forall i :: 0 <= i < |acc| ==> (acc + [r])[i] == acc[i];
  }

  lemma AcceptOk(d0: Decomposition, d: Decomposition, c: Color, acc: seq<Rect>, s: Rect, r: Rect)
    requires SameCanvas(d0, d) && AcceptedOk(d0, acc, c)
    requires Crop(s, d.dims) == Some(r) && s.width >= 1 && s.height >= 1 && HasColor(d, r, c)
    ensures AcceptedOk(d0, acc + [r], c)
  {
    CropInside(r, d0.dims);
    assert HasColor(d0, r, c) by {
      var x: nat, y: nat :| OnCanvas(d, x, y) && InRect(r, x, y) && ColorAt(d, x, y) == c;
      assert OnCanvas(d0, x, y) && ColorAt(d0, x, y) == c;
    }
    assert (acc + [r])[|acc|] == r;
    assert forall i :: 0 <= i < |acc| ==> (acc + [r])[i] == acc[i];
  }

  /** The `c`-cells of the popped square are claimed once its crop is accepted. */
  lemma AcceptPending(d0: Decomposition, d: Decomposition, d': Decomposition, c: Color,
                      work: seq<Rect>, s: Rect, r: Rect)
    requires SameCanvas(d0, d) && SameCanvas(d0, d')
    requires |work| >= 1 && s == work[|work| - 1]
    requires Pending(d0, d, c, work)
    requires Crop(s, d0.dims) == Some(r)
    requires forall x: nat, y: nat :: OnCanvas(d0, x, y) ==>
      (Claimed(d', x, y) <==> Claimed(d, x, y) || (InRect(r, x, y) && ColorAt(d0, x, y) == c))
    ensures Pending(d0, d', c, work[..|work| - 1])
  {
    var rest := work[..|work| - 1];
    assert work == rest + [s];
    forall x: nat, y: nat | OnCanvas(d0, x, y) && ColorAt(d0, x, y) == c
      ensures Claimed(d', x, y) || Covered(rest, x, y)
    {
      CoveredConcat(rest, [s], x, y);
      CoveredSingleton(s, x, y);
    }
  }

  lemma StackShapePrefix(work: seq<Rect>, k: nat)
    requires StackShape(work) && k <= |work|
    ensures StackShape(work[..k])
  {
    assert forall i :: 0 <= i < k ==> work[..k][i] == work[i];
  }

  /** The crop of the popped square is disjoint from the rest of the stack and the accepted rectangles. */
  lemma AcceptDisjoint(work: seq<Rect>, acc: seq<Rect>, s: Rect, r: Rect)
    requires |work| >= 1 && s == work[|work| - 1]
    requires StackShape(work) && PairwiseDisjoint(acc) && AllDisjoint(work, acc)
    requires Within(r, s)
    ensures PairwiseDisjoint(acc + [r]) && AllDisjoint(work[..|work| - 1], acc + [r])
  {
    var rest := work[..|work| - 1];
    var acc' := acc + [r];
    forall i, j | 0 <= i < |rest| && 0 <= j < |acc'| ensures Disjoint(rest[i], acc'[j]) {
      if j == |acc| {
        assert Disjoint(work[|work| - 1], work[i]);
        WithinDisjoint(r, s, rest[i]);
      } else {
        assert Disjoint(work[i], acc[j]);
      }
    }
    forall i, j | 0 <= i < |acc'| && 0 <= j < |acc'| && i != j ensures Disjoint(acc'[i], acc'[j]) {
      if i == |acc| {
        assert Disjoint(work[|work| - 1], acc[j]);
        WithinDisjoint(r, s, acc[j]);
      } else if j == |acc| {
        assert Disjoint(work[|work| - 1], acc[i]);
        WithinDisjoint(r, s, acc[i]);
      } else {
        assert Disjoint(acc[i], acc[j]);
      }
    }
  }

  /** Accepting the crop `r` of the popped square `s` keeps the invariant and lightens the stack. */
  lemma AcceptStep(d0: Decomposition, d: Decomposition, c: Color, acc: seq<Rect>, work: seq<Rect>,
                   s: Rect, r: Rect, d': Decomposition)
    requires |work| >= 1 && s == work[|work| - 1]
    requires ColorInv(d0, d, c, acc, work)
    requires Crop(s, d.dims) == Some(r) && NoneClaimed(d, r) && HasColor(d, r, c)
    requires SameCanvas(d, d')
    requires forall x: nat, y: nat :: OnCanvas(d, x, y) ==>
      (Claimed(d', x, y) <==> Claimed(d, x, y) || (InRect(r, x, y) && ColorAt(d, x, y) == c))
    ensures ColorInv(d0, d', c, acc + [r], work[..|work| - 1])
    ensures StackWeight(work[..|work| - 1]) < StackWeight(work)
  {
    AcceptClaims(d0, d, d', c, acc, r);
    AcceptFresh(d0, d, c, acc, r);
    AcceptOk(d0, d, c, acc, s, r);
    AcceptPending(d0, d, d', c, work, s, r);
    StackShapePrefix(work, |work| - 1);
    AcceptDisjoint(work, acc, s, r);
    assert StackWeight(work) == StackWeight(work[..|work| - 1]) + Weight(s.width);
  }

  /** The quadrants of the popped square cover what it covered. */
  lemma SplitPending(d0: Decomposition, d: Decomposition, c: Color, work: seq<Rect>, s: Rect, quads: seq<Rect>)
    requires SameCanvas(d0, d)
    requires |work| >= 1 && s == work[|work| - 1]
    requires Pending(d0, d, c, work)
    requires |quads| == 4 && forall px, py :: InRect(s, px, py) <==> exists i :: 0 <= i < 4 && InRect(quads[i], px, py)
    ensures Pending(d0, d, c, work[..|work| - 1] + quads)
  {
    var rest := work[..|work| - 1];
    assert work == rest + [s];
    forall x: nat, y: nat | OnCanvas(d0, x, y) && ColorAt(d0, x, y) == c
      ensures Claimed(d, x, y) || Covered(rest + quads, x, y)
    {
      CoveredConcat(rest, [s], x, y);
      CoveredSingleton(s, x, y);
      CoveredConcat(rest, quads, x, y);
    }
  }

  /** Replacing the popped square by its quadrants keeps the stack's shape and its separation from `acc`. */
  lemma SplitDisjoint(work: seq<Rect>, acc: seq<Rect>, s: Rect, quads: seq<Rect>)
    requires |work| >= 1 && s == work[|work| - 1]
    requires StackShape(work) && AllDisjoint(work, acc)
    requires |quads| == 4 && IsPow2(s.width / 2)
    requires forall i :: 0 <= i < 4 ==>
      quads[i].width == s.width / 2 && quads[i].height == s.width / 2 && Within(quads[i], s)
    requires forall i, j :: 0 <= i < j < 4 ==> Disjoint(quads[i], quads[j])
    ensures StackShape(work[..|work| - 1] + quads) && AllDisjoint(work[..|work| - 1] + quads, acc)
  {
    var rest := work[..|work| - 1];
    var work' := rest + quads;
    forall i | 0 <= i < |work'| ensures work'[i].width == work'[i].height && IsPow2(work'[i].width) {
      if i < |rest| {
        assert work'[i] == work[i];
      } else {
        assert work'[i] == quads[i - |rest|];
      }
    }
    SplitPairwise(work, s, quads);
    SplitApart(work, acc, s, quads);
  }

  /** The quadrants are disjoint from each other and, lying inside the popped square, from the rest of the stack. */
  lemma SplitPairwise(work: seq<Rect>, s: Rect, quads: seq<Rect>)
    requires |work| >= 1 && s == work[|work| - 1] && PairwiseDisjoint(work)
    requires |quads| == 4 && forall i :: 0 <= i < 4 ==> Within(quads[i], s)
    requires forall i, j :: 0 <= i < j < 4 ==> Disjoint(quads[i], quads[j])
    ensures PairwiseDisjoint(work[..|work| - 1] + quads)
  {
    var rest := work[..|work| - 1];
    var work' := rest + quads;
    forall i, j | 0 <= i < |work'| && 0 <= j < |work'| && i != j ensures Disjoint(work'[i], work'[j]) {
      if i >= |rest| && j >= |rest| {
        assert work'[i] == quads[i - |rest|] && work'[j] == quads[j - |rest|];
        if i < j {
          assert Disjoint(quads[i - |rest|], quads[j - |rest|]);
        } else {
          assert Disjoint(quads[j - |rest|], quads[i - |rest|]);
        }
      } else if i >= |rest| {
        assert Disjoint(work[|work| - 1], work[j]);
        WithinDisjoint(quads[i - |rest|], s, work[j]);
      } else if j >= |rest| {
        assert Disjoint(work[|work| - 1], work[i]);
        WithinDisjoint(quads[j - |rest|], s, work[i]);
      } else {
        assert Disjoint(work[i], work[j]);
      }
    }
  }

  /** The quadrants, lying inside the popped square, stay apart from the accepted rectangles. */
  lemma SplitApart(work: seq<Rect>, acc: seq<Rect>, s: Rect, quads: seq<Rect>)
    requires |work| >= 1 && s == work[|work| - 1] && AllDisjoint(work, acc)
    requires |quads| == 4 && forall i :: 0 <= i < 4 ==> Within(quads[i], s)
    ensures AllDisjoint(work[..|work| - 1] + quads, acc)
  {
    var rest := work[..|work| - 1];
    var work' := rest + quads;
    forall i, j | 0 <= i < |work'| && 0 <= j < |acc| ensures Disjoint(work'[i], acc[j]) {
      if i >= |rest| {
        assert Disjoint(work[|work| - 1], acc[j]);
        WithinDisjoint(quads[i - |rest|], s, acc[j]);
      } else {
        assert work'[i] == work[i];
      }
    }
  }


  /** Four squares of one side weigh four times one square. */
  lemma StackWeightQuads(quads: seq<Rect>, side: nat)
    requires |quads| == 4 && forall i :: 0 <= i < 4 ==> quads[i].width == side
    ensures StackWeight(quads) == 4 * Weight(side)
  {
    assert quads[..3][..2] == quads[..2] && quads[..2][..1] == quads[..1] && quads[..1][..0] == [];
    assert StackWeight(quads[..1]) == Weight(side);
    assert StackWeight(quads[..2]) == 2 * Weight(side);
    assert StackWeight(quads[..3]) == 3 * Weight(side);
  }

  /** Four quadrants of half the side weigh less than their parent. */
  lemma SplitWeight(work: seq<Rect>, s: Rect, quads: seq<Rect>)
    requires |work| >= 1 && s == work[|work| - 1] && s.width >= 2
    requires |quads| == 4 && forall i :: 0 <= i < 4 ==> quads[i].width == s.width / 2
    ensures StackWeight(work[..|work| - 1] + quads) < StackWeight(work)
  {
    var rest := work[..|work| - 1];
    assert StackWeight(work) == StackWeight(rest) + Weight(s.width);
    StackWeightAppend(rest, quads);
    StackWeightQuads(quads, s.width / 2);
    assert Weight(s.width) == 1 + 4 * Weight(s.width / 2);
  }

  /** Replacing a rejected square by its four quadrants keeps the invariant and lightens the stack. */
  lemma SplitStep(d0: Decomposition, d: Decomposition, c: Color, acc: seq<Rect>, work: seq<Rect>,
                  s: Rect, quads: seq<Rect>)
    requires |work| >= 1 && s == work[|work| - 1]
    requires ColorInv(d0, d, c, acc, work)
    requires s.width == s.height && IsPow2(s.width) && Split(s) == Some(quads)
    ensures ColorInv(d0, d, c, acc, work[..|work| - 1] + quads)
    ensures StackWeight(work[..|work| - 1] + quads) < StackWeight(work)
  {
    SplitPending(d0, d, c, work, s, quads);
    SplitDisjoint(work, acc, s, quads);
    SplitWeight(work, s, quads);
  }

  /** A rejected 1x1 square holds no unclaimed `c`-cell. */
  lemma UnitRejected(d: Decomposition, s: Rect, c: Color)
    requires Valid(d) && s.width == 1 && s.height == 1
    requires !(Crop(s, d.dims).Some? && NoneClaimed(d, Crop(s, d.dims).value) && HasColor(d, Crop(s, d.dims).value, c))
    ensures forall x: nat, y: nat :: OnCanvas(d, x, y) && InRect(s, x, y) && ColorAt(d, x, y) == c ==> Claimed(d, x, y)
  {
    forall x: nat, y: nat | OnCanvas(d, x, y) && InRect(s, x, y) && ColorAt(d, x, y) == c
      ensures Claimed(d, x, y)
    {
      var r := Crop(s, d.dims).value;
      assert InRect(r, x, y);
      assert HasColor(d, r, c);
      var px: nat, py: nat :| OnCanvas(d, px, py) && InRect(r, px, py) && Claimed(d, px, py);
      assert px == x && py == y;
    }
  }

  /** Dropping a rejected 1x1 square keeps the invariant and lightens the stack. */
  lemma DiscardStep(d0: Decomposition, d: Decomposition, c: Color, acc: seq<Rect>, work: seq<Rect>, s: Rect)
    requires |work| >= 1 && s == work[|work| - 1]
    requires ColorInv(d0, d, c, acc, work)
    requires s.width == 1 && s.height == 1
    requires !(Crop(s, d.dims).Some? && NoneClaimed(d, Crop(s, d.dims).value) && HasColor(d, Crop(s, d.dims).value, c))
    ensures ColorInv(d0, d, c, acc, work[..|work| - 1])
    ensures StackWeight(work[..|work| - 1]) < StackWeight(work)
  {
    UnitRejected(d, s, c);
    DiscardPending(d0, d, c, work, s);
    StackShapePrefix(work, |work| - 1);
    assert StackWeight(work) == StackWeight(work[..|work| - 1]) + Weight(s.width);
  }

  /** Dropping a popped square whose `c`-cells are all claimed leaves nothing pending uncovered. */
  lemma DiscardPending(d0: Decomposition, d: Decomposition, c: Color, work: seq<Rect>, s: Rect)
    requires |work| >= 1 && s == work[|work| - 1]
    requires SameCanvas(d0, d) && Pending(d0, d, c, work)
    requires forall x: nat, y: nat :: OnCanvas(d, x, y) && InRect(s, x, y) && ColorAt(d, x, y) == c ==> Claimed(d, x, y)
    ensures Pending(d0, d, c, work[..|work| - 1])
  {
    var rest := work[..|work| - 1];
    assert work == rest + [s];
    forall x: nat, y: nat | OnCanvas(d0, x, y) && ColorAt(d0, x, y) == c
      ensures Claimed(d, x, y) || Covered(rest, x, y)
    {
      CoveredConcat(rest, [s], x, y);
      CoveredSingleton(s, x, y);
    }
  }

  /**
    * The work-stack loop of `decompose` for one later colour `c`, started
    * from `square`. It returns the accepted rectangles and the new state:
    * the newly claimed cells are exactly the `c`-cells of the accepted
    * rectangles, every `c`-cell ends up claimed, each accepted rectangle lies
    * on the canvas, holds a `c`-cell and no cell claimed before, and the
    * accepted rectangles are pairwise disjoint.
    */
  method DecomposeColor(d0: Decomposition, square: Rect, c: Color) returns (acc: seq<Rect>, d: Decomposition)
    requires Valid(d0)
    requires square.x == 0 && square.y == 0 && square.width == square.height && IsPow2(square.width)
    requires square.width >= d0.dims.width && square.width >= d0.dims.height
    ensures Valid(d) && d.dims == d0.dims && d.pixels == d0.pixels
    ensures forall x: nat, y: nat :: OnCanvas(d0, x, y) ==>
      (Claimed(d, x, y) <==> Claimed(d0, x, y) || (ColorAt(d0, x, y) == c && Covered(acc, x, y)))
    ensures forall x: nat, y: nat :: OnCanvas(d0, x, y) && ColorAt(d0, x, y) == c ==> Claimed(d, x, y)
    ensures forall i :: 0 <= i < |acc| ==> NoneClaimed(d0, acc[i])
    ensures AcceptedOk(d0, acc, c)
    ensures PairwiseDisjoint(acc)
  {
    acc := [];
    d := d0;
    var work := [square];
    ColorInvInit(d0, c, square);
    while |work| > 0
      invariant ColorInv(d0, d, c, acc, work)
      decreases StackWeight(work)
    {
      var s := work[|work| - 1];
      var ok := CheckInstruction(d, s, c);
      if ok {
        var r := Crop(s, d.dims).value;
        var d' := UpdateBitmap(d, r, c);
        AcceptStep(d0, d, c, acc, work, s, r, d');
        acc, d, work := acc + [r], d', work[..|work| - 1];
      } else {
        var children := Split(s);
        if children.Some? {
          SplitStep(d0, d, c, acc, work, s, children.value);
          work := work[..|work| - 1] + children.value;
        } else {
          DiscardStep(d0, d, c, acc, work, s);
          work := work[..|work| - 1];
        }
      }
    }
  }

  // ---------------------------------------------------------------------
  // decompose
  // ---------------------------------------------------------------------

  /**
    * After the colours `order[..k]`: a cell is claimed exactly when its
    * colour is some `order[j]`, j < k, and a rectangle of `lists[j]` covers it.
    */
  ghost predicate ClaimsExplained(d: Decomposition, order: seq<Color>, lists: seq<seq<Rect>>, k: nat)
    requires Valid(d) && k <= |order| && k <= |lists|
  {
    forall x: nat, y: nat :: OnCanvas(d, x, y) ==>
      (Claimed(d, x, y) <==> exists j :: 0 <= j < k && ColorAt(d, x, y) == order[j] && Covered(lists[j], x, y))
  }

  /**
    * A cell of colour `order[j1]` covered by `lists[j1]` is covered by no
    * rectangle of a later colour: painting the lists in order never paints
    * over it.
    */
  ghost predicate NoLaterCover(d: Decomposition, order: seq<Color>, lists: seq<seq<Rect>>)
    requires Valid(d) && |lists| <= |order|
  {
    forall j1, j2, x: nat, y: nat ::
      0 <= j1 < j2 < |lists| && OnCanvas(d, x, y) && ColorAt(d, x, y) == order[j1] && Covered(lists[j1], x, y)
      ==> !Covered(lists[j2], x, y)
  }

  /** Every cell whose colour occurs in `order[..k]` is claimed. */
  ghost predicate ColorsClaimed(d: Decomposition, order: seq<Color>, k: nat)
    requires Valid(d) && k <= |order|
  {
    forall j, x: nat, y: nat :: 0 <= j < k && OnCanvas(d, x, y) && ColorAt(d, x, y) == order[j] ==> Claimed(d, x, y)
  }

  /** The rectangles of every colour after the first lie on the canvas, hold that colour and are pairwise disjoint. */
  ghost predicate LaterListsOk(d: Decomposition, order: seq<Color>, lists: seq<seq<Rect>>)
    requires Valid(d) && |lists| <= |order|
  {
    forall j :: 1 <= j < |lists| ==> AcceptedOk(d, lists[j], order[j]) && PairwiseDisjoint(lists[j])
  }

  ghost predicate DecomposeInv(d: Decomposition, width: nat, height: nat, pixels: seq<Color>,
                               order: seq<Color>, lists: seq<seq<Rect>>)
  {
    && Valid(d) && d.dims == Rect(0, 0, width, height) && d.pixels == pixels
    && 1 <= |lists| <= |order|
    && lists[0] == [d.dims]
    && ClaimsExplained(d, order, lists, |lists|)
    && NoLaterCover(d, order, lists)
    && ColorsClaimed(d, order, |lists|)
    && LaterListsOk(d, order, lists)
  }

  lemma DecomposeInvInit(d0: Decomposition, d: Decomposition, order: seq<Color>)
    requires Valid(d0) && d0.dims.width >= 1 && d0.dims.height >= 1 && |order| >= 1
    requires forall x: nat, y: nat :: OnCanvas(d0, x, y) ==> !Claimed(d0, x, y)
    requires Valid(d) && d.dims == d0.dims && d.pixels == d0.pixels
    requires forall x: nat, y: nat :: OnCanvas(d0, x, y) ==>
      (Claimed(d, x, y) <==> Claimed(d0, x, y) || (InRect(d0.dims, x, y) && ColorAt(d0, x, y) == order[0]))
    ensures DecomposeInv(d, d0.dims.width, d0.dims.height, d0.pixels, order, [[d0.dims]])
  {
    var lists := [[d0.dims]];
    forall x: nat, y: nat | OnCanvas(d, x, y)
      ensures Claimed(d, x, y) <==> exists j :: 0 <= j < 1 && ColorAt(d, x, y) == order[j] && Covered(lists[j], x, y)
    {
      assert InRect(lists[0][0], x, y);
    }
  }

  /** The claims after one more colour are explained by one more list. */
  lemma StepClaims(d: Decomposition, d': Decomposition, order: seq<Color>, lists: seq<seq<Rect>>, acc: seq<Rect>)
    requires SameCanvas(d, d') && |lists| < |order|
    requires ClaimsExplained(d, order, lists, |lists|)
    requires ClaimsMatch(d, d', order[|lists|], acc)
    ensures ClaimsExplained(d', order, lists + [acc], |lists| + 1)
  {
    var k := |lists|;
    var lists' := lists + [acc];
    assert forall j :: 0 <= j < k ==> lists'[j] == lists[j];
    assert lists'[k] == acc;
    forall x: nat, y: nat | OnCanvas(d', x, y)
      ensures Claimed(d', x, y) <==> exists j :: 0 <= j < k + 1 && ColorAt(d', x, y) == order[j] && Covered(lists'[j], x, y)
    {
      if Claimed(d, x, y) {
        var j :| 0 <= j < k && ColorAt(d, x, y) == order[j] && Covered(lists[j], x, y);
        assert Covered(lists'[j], x, y);
      }
      if exists j :: 0 <= j < k + 1 && ColorAt(d', x, y) == order[j] && Covered(lists'[j], x, y) {
        var j :| 0 <= j < k + 1 && ColorAt(d', x, y) == order[j] && Covered(lists'[j], x, y);
        if j < k {
          assert Claimed(d, x, y);
        }
      }
    }
  }

  /** The new list covers no cell an earlier list explains, since such cells were already claimed. */
  lemma StepNoLater(d: Decomposition, d': Decomposition, order: seq<Color>, lists: seq<seq<Rect>>, acc: seq<Rect>)
    requires SameCanvas(d, d') && |lists| < |order|
    requires ClaimsExplained(d, order, lists, |lists|)
    requires NoLaterCover(d, order, lists)
    requires AllFresh(d, acc)
    ensures NoLaterCover(d', order, lists + [acc])
  {
    var k := |lists|;
    var lists' := lists + [acc];
    assert forall j :: 0 <= j < k ==> lists'[j] == lists[j];
    assert lists'[k] == acc;
    forall j1, j2, x: nat, y: nat |
      0 <= j1 < j2 < |lists'| && OnCanvas(d', x, y) && ColorAt(d', x, y) == order[j1] && Covered(lists'[j1], x, y)
      ensures !Covered(lists'[j2], x, y)
    {
      if j2 == k {
        assert Claimed(d, x, y);
        forall i | 0 <= i < |acc| ensures !InRect(acc[i], x, y) {
          assert NoneClaimed(d, acc[i]);
        }
      } else {
        assert ColorAt(d, x, y) == order[j1] && Covered(lists[j1], x, y);
        assert !Covered(lists[j2], x, y);
      }
    }
  }

  lemma StepColorsClaimed(d: Decomposition, d': Decomposition, order: seq<Color>, k: nat)
    requires SameCanvas(d, d') && k < |order|
    requires ColorsClaimed(d, order, k)
    requires forall x: nat, y: nat :: OnCanvas(d, x, y) && Claimed(d, x, y) ==> Claimed(d', x, y)
    requires forall x: nat, y: nat :: OnCanvas(d, x, y) && ColorAt(d, x, y) == order[k] ==> Claimed(d', x, y)
    ensures ColorsClaimed(d', order, k + 1)
  {
    forall j, x: nat, y: nat | 0 <= j < k + 1 && OnCanvas(d', x, y) && ColorAt(d', x, y) == order[j]
      ensures Claimed(d', x, y)
    {
      if j < k {
        assert Claimed(d, x, y);
      }
    }
  }

  lemma StepListsOk(d: Decomposition, d': Decomposition, order: seq<Color>, lists: seq<seq<Rect>>, acc: seq<Rect>)
    requires SameCanvas(d, d') && |lists| < |order|
    requires LaterListsOk(d, order, lists)
    requires AcceptedOk(d, acc, order[|lists|]) && PairwiseDisjoint(acc)
    ensures LaterListsOk(d', order, lists + [acc])
  {
    var lists' := lists + [acc];
    assert forall j :: 0 <= j < |lists| ==> lists'[j] == lists[j];
    assert lists'[|lists|] == acc;
    AcceptedOkSameCanvas(d, d', acc, order[|lists|]);
    forall j | 1 <= j < |lists| ensures AcceptedOk(d', lists[j], order[j]) {
      AcceptedOkSameCanvas(d, d', lists[j], order[j]);
    }
  }

  /** Acceptance depends only on the canvas and the pixels, not on the claims. */
  lemma AcceptedOkSameCanvas(d: Decomposition, d': Decomposition, acc: seq<Rect>, c: Color)
    requires SameCanvas(d, d') && AcceptedOk(d, acc, c)
    ensures AcceptedOk(d', acc, c)
  {
    forall i | 0 <= i < |acc| ensures HasColor(d', acc[i], c) {
      assert HasColor(d, acc[i], c);
      var x: nat, y: nat :| OnCanvas(d, x, y) && InRect(acc[i], x, y) && ColorAt(d, x, y) == c;
      assert OnCanvas(d', x, y) && ColorAt(d', x, y) == c;
    }
  }

  lemma DecomposeInvStep(d: Decomposition, width: nat, height: nat, pixels: seq<Color>,
                         order: seq<Color>, lists: seq<seq<Rect>>, acc: seq<Rect>, d': Decomposition)
    requires DecomposeInv(d, width, height, pixels, order, lists) && |lists| < |order|
    requires SameCanvas(d, d')
    requires ClaimsMatch(d, d', order[|lists|], acc)
    requires forall x: nat, y: nat :: OnCanvas(d, x, y) && ColorAt(d, x, y) == order[|lists|] ==> Claimed(d', x, y)
    requires AllFresh(d, acc)
    requires AcceptedOk(d, acc, order[|lists|]) && PairwiseDisjoint(acc)
    ensures DecomposeInv(d', width, height, pixels, order, lists + [acc])
  {
    StepClaims(d, d', order, lists, acc);
    StepNoLater(d, d', order, lists, acc);
    StepColorsClaimed(d, d', order, |lists|);
    StepListsOk(d, d', order, lists, acc);
    assert (lists + [acc])[0] == lists[0];
  }

  /** Colour `c` occurs at `k` and nowhere after it. */
  predicate LastOccurrence(order: seq<Color>, k: nat)
    requires k < |order|
  {
    forall j :: k < j < |order| ==> order[j] != order[k]
  }

  /**
    * `HashMap::insert` for every colour of `order` in turn: the map has one
    * key per distinct colour, holding the list of its last occurrence.
    */
  function InstructionMap(order: seq<Color>, lists: seq<seq<Rect>>): (m: map<Color, seq<Rect>>)
    requires |lists| == |order|
    ensures forall c :: c in m <==> c in order
    decreases |order|
  {
    if |order| == 0 then map[]
    else
      var n := |order| - 1;
      assert order == order[..n] + [order[n]];
      InstructionMap(order[..n], lists[..n])[order[n] := lists[n]]
  }

  /** The last occurrence of a colour decides its entry: later inserts overwrite earlier ones. */
  lemma {:induction false} InstructionMapLast(order: seq<Color>, lists: seq<seq<Rect>>, k: nat)
    requires |lists| == |order| && k < |order| && LastOccurrence(order, k)
    ensures order[k] in InstructionMap(order, lists) && InstructionMap(order, lists)[order[k]] == lists[k]
    decreases |order|
  {
    var n := |order| - 1;
    if k < n {
      assert order[k] != order[n];
      assert LastOccurrence(order[..n], k) && order[..n][k] == order[k];
      InstructionMapLast(order[..n], lists[..n], k);
    }
  }

  /**
    * `decompose`: the rectangle list of every colour of `order`, most
    * frequent first. The first colour takes the whole canvas. For every
    * other colour the lists lie on the canvas, are pairwise disjoint and each
    * rectangle holds that colour. A cell of colour `order[j1]` covered by
    * `lists[j1]` is covered by no later colour's list, and every cell whose
    * colour occurs in `order` is covered by a list of that colour. The
    * source needs a non-empty `order` (it reads `color_order[0]`) and a
    * non-empty canvas (its debug assertion crops the canvas to itself).
    */
  method Decompose(width: nat, height: nat, pixels: seq<Color>, order: seq<Color>)
    returns (lists: seq<seq<Rect>>, instructions: map<Color, seq<Rect>>)
    requires width >= 1 && height >= 1 && |pixels| == width * height
    requires |order| >= 1
    ensures |lists| == |order| && lists[0] == [Rect(0, 0, width, height)]
    ensures LaterListsFit(width, height, pixels, order, lists)
    ensures NotOverpainted(width, height, pixels, order, lists)
    ensures OwnColorCovers(width, height, pixels, order, lists)
    ensures instructions == InstructionMap(order, lists)
  {
    var square := FromSquare(0, 0, NextPow2(if width >= height then width else height));
    var d0 := NewDecomposition(width, height, pixels);
    CropInside(d0.dims, d0.dims);
    var d := UpdateBitmap(d0, d0.dims, order[0]);
    DecomposeInvInit(d0, d, order);
    lists := [[d.dims]];
    while |lists| < |order|
      invariant DecomposeInv(d, width, height, pixels, order, lists)
      decreases |order| - |lists|
    {
      var acc, d' := DecomposeColor(d, square, order[|lists|]);
      DecomposeInvStep(d, width, height, pixels, order, lists, acc, d');
      lists, d := lists + [acc], d';
    }
    DecomposeOutcome(d, width, height, pixels, order, lists);
    instructions := InstructionMap(order, lists);
  }

  /**
    * Every list after the first is a set of pairwise disjoint, non-empty
    * rectangles on the canvas, each holding at least one pixel of its colour.
    */
  ghost predicate LaterListsFit(width: nat, height: nat, pixels: seq<Color>, order: seq<Color>, lists: seq<seq<Rect>>)
    requires |pixels| == width * height && |lists| == |order|
  {
    forall j :: 1 <= j < |lists| ==>
      && PairwiseDisjoint(lists[j])
      && forall i :: 0 <= i < |lists[j]| ==>
        && lists[j][i].x + lists[j][i].width <= width && lists[j][i].y + lists[j][i].height <= height
        && lists[j][i].width >= 1 && lists[j][i].height >= 1
        && exists x: nat, y: nat :: InRect(lists[j][i], x, y) && Pixel(pixels, width, height, x, y) == order[j]
  }

  /**
    * A pixel covered by a list of its own colour is covered by no later list,
    * so nothing drawn afterwards paints over it.
    */
  ghost predicate NotOverpainted(width: nat, height: nat, pixels: seq<Color>, order: seq<Color>, lists: seq<seq<Rect>>)
    requires |pixels| == width * height && |lists| == |order|
  {
    forall j1, j2, x: nat, y: nat ::
      (&& 0 <= j1 < j2 < |lists| && x < width && y < height
       && Pixel(pixels, width, height, x, y) == order[j1] && Covered(lists[j1], x, y))
      ==> !Covered(lists[j2], x, y)
  }

  /** Every pixel whose colour is in the order is covered by a list of that colour. */
  ghost predicate OwnColorCovers(width: nat, height: nat, pixels: seq<Color>, order: seq<Color>, lists: seq<seq<Rect>>)
    requires |pixels| == width * height && |lists| == |order|
  {
    forall x: nat, y: nat :: x < width && y < height && Pixel(pixels, width, height, x, y) in order ==>
      exists j :: 0 <= j < |order| && order[j] == Pixel(pixels, width, height, x, y) && Covered(lists[j], x, y)
  }

  /** Restates the final invariant of `decompose` in terms of the pixel buffer. */
  lemma DecomposeOutcome(d: Decomposition, width: nat, height: nat, pixels: seq<Color>,
                         order: seq<Color>, lists: seq<seq<Rect>>)
    requires DecomposeInv(d, width, height, pixels, order, lists) && |lists| == |order|
    requires |pixels| == width * height
    ensures lists[0] == [Rect(0, 0, width, height)]
    ensures LaterListsFit(width, height, pixels, order, lists)
    ensures NotOverpainted(width, height, pixels, order, lists)
    ensures OwnColorCovers(width, height, pixels, order, lists)
  {
    forall j, i | 1 <= j < |lists| && 0 <= i < |lists[j]|
      ensures exists x: nat, y: nat :: InRect(lists[j][i], x, y) && Pixel(pixels, width, height, x, y) == order[j]
    {
      assert AcceptedOk(d, lists[j], order[j]);
      assert HasColor(d, lists[j][i], order[j]);
      var x: nat, y: nat :| OnCanvas(d, x, y) && InRect(lists[j][i], x, y) && ColorAt(d, x, y) == order[j];
    }
    forall j1, j2, x: nat, y: nat |
      0 <= j1 < j2 < |lists| && x < width && y < height &&
      Pixel(pixels, width, height, x, y) == order[j1] && Covered(lists[j1], x, y)
      ensures !Covered(lists[j2], x, y)
    {
      assert ColorAt(d, x, y) == order[j1];
    }
    forall x: nat, y: nat | x < width && y < height && Pixel(pixels, width, height, x, y) in order
      ensures exists j :: 0 <= j < |order| && order[j] == Pixel(pixels, width, height, x, y) && Covered(lists[j], x, y)
    {
      var j :| 0 <= j < |order| && order[j] == Pixel(pixels, width, height, x, y);
      assert ColorAt(d, x, y) == order[j];
      assert Claimed(d, x, y);
    }
  }
}

=== FILE: rectangle.dfy ===
/**
  * Axis-aligned rectangles on the pixel grid (crates/autopixel/src/rectangle.rs):
  * cropping to the canvas, quad-tree subdivision of a square, and merging of
  * two edge-adjacent rectangles. Coordinates are `usize` in the source and
  * unbounded naturals here.
  */
module Rectangles {
  import opened Wrappers

  /** A rectangle whose top-left cell is (x, y). */
  datatype Rect = Rect(x: nat, y: nat, width: nat, height: nat)

  /** `Rectangle::from_square`: the `size` by `size` block of cells whose top-left cell is (x, y). */
  function FromSquare(x: nat, y: nat, size: nat): (r: Rect)
    ensures forall px, py :: InRect(r, px, py) <==> x <= px < x + size && y <= py < y + size
  {
    Rect(x, y, size, size)
  }

  /** The cell (px, py) lies inside `r`. */
  predicate InRect(r: Rect, px: int, py: int) {
    r.x <= px < r.x + r.width && r.y <= py < r.y + r.height
  }

  /** Some rectangle of `rs` holds the cell (px, py). */
  predicate Covered(rs: seq<Rect>, px: int, py: int) {
    exists i :: 0 <= i < |rs| && InRect(rs[i], px, py)
  }

  /** A cell is covered by a concatenation exactly when one of the parts covers it. */
  lemma CoveredConcat(a: seq<Rect>, b: seq<Rect>, px: int, py: int)
    ensures Covered(a + b, px, py) <==> Covered(a, px, py) || Covered(b, px, py)
  {
    if Covered(a + b, px, py) {
      var i :| 0 <= i < |a + b| && InRect((a + b)[i], px, py);
      if i < |a| {
        assert InRect(a[i], px, py);
      } else {
        assert InRect(b[i - |a|], px, py);
      }
    }
    if Covered(a, px, py) {
      var i :| 0 <= i < |a| && InRect(a[i], px, py);
      assert InRect((a + b)[i], px, py);
    }
    if Covered(b, px, py) {
      var i :| 0 <= i < |b| && InRect(b[i], px, py);
      assert InRect((a + b)[|a| + i], px, py);
    }
  }

  lemma CoveredSingleton(r: Rect, px: int, py: int)
    ensures Covered([r], px, py) <==> InRect(r, px, py)
  {
    if InRect(r, px, py) {
      assert InRect([r][0], px, py);
    }
  }

  /** `a` lies inside `b`. */
  predicate Within(a: Rect, b: Rect) {
    b.x <= a.x && a.x + a.width <= b.x + b.width &&
    b.y <= a.y && a.y + a.height <= b.y + b.height
  }

  /** `a` and `b` are separated along one axis. */
  predicate Disjoint(a: Rect, b: Rect) {
    a.x + a.width <= b.x || b.x + b.width <= a.x ||
    a.y + a.height <= b.y || b.y + b.height <= a.y
  }

  /** Every two entries of `rs` are separated along some axis. */
  ghost predicate PairwiseDisjoint(rs: seq<Rect>) {
    forall i, j :: 0 <= i < |rs| && 0 <= j < |rs| && i != j ==> Disjoint(rs[i], rs[j])
  }

  /** Every rectangle of `rs` holds at least one cell. */
  predicate AllSolid(rs: seq<Rect>) {
    forall i :: 0 <= i < |rs| ==> rs[i].width >= 1 && rs[i].height >= 1
  }

  /** Non-empty rectangles, no two of which share a cell. */
  ghost predicate Tiling(rs: seq<Rect>) {
    AllSolid(rs) && PairwiseDisjoint(rs)
  }

  function Area(r: Rect): nat {
    r.width * r.height
  }

  /** `usize::is_power_of_two`. */
  predicate IsPow2(n: nat)
    decreases n
  {
    n == 1 || (n >= 2 && n % 2 == 0 && IsPow2(n / 2))
  }

  /**
    * `Rectangle::crop`: the part of `r` that lies on a canvas of the
    * picture's width and height anchored at the origin. The picture's own
    * x and y are not consulted.
    */
  function Crop(r: Rect, picture: Rect): (c: Option<Rect>)
    ensures c.None? <==> r.x >= picture.width || r.y >= picture.height
    ensures c.Some? ==>
      && c.value.x == r.x && c.value.y == r.y
      && c.value.width <= r.width && c.value.height <= r.height
      && c.value.x + c.value.width <= picture.width
      && c.value.y + c.value.height <= picture.height
      && (r.width >= 1 ==> c.value.width >= 1)
      && (r.height >= 1 ==> c.value.height >= 1)
    ensures c.Some? ==> forall px, py ::
      InRect(c.value, px, py) <==> InRect(r, px, py) && px < picture.width && py < picture.height
  {
    if r.x >= picture.width || r.y >= picture.height then
      None
    else
      var width := if r.width <= picture.width - r.x then r.width else picture.width - r.x;
      var height := if r.height <= picture.height - r.y then r.height else picture.height - r.y;
      Some(Rect(r.x, r.y, width, height))
  }

  /** A rectangle that already lies on the canvas is its own crop. */
  lemma CropInside(r: Rect, picture: Rect)
    requires r.x < picture.width && r.y < picture.height
    requires r.x + r.width <= picture.width && r.y + r.height <= picture.height
    ensures Crop(r, picture) == Some(r)
  {
  }

  /**
    * `Rectangle::split`: the four quadrants of a power-of-two square, in the
    * order top-left, bottom-left, top-right, bottom-right; None for a 1x1 cell.
    */
  function Split(r: Rect): (q: Option<seq<Rect>>)
    requires r.width == r.height && IsPow2(r.width)
    ensures q.None? <==> r.width == 1
    ensures q.Some? ==> |q.value| == 4 && IsPow2(r.width / 2) && r.width / 2 >= 1
    ensures q.Some? ==> forall i :: 0 <= i < 4 ==>
      && q.value[i].width == r.width / 2 && q.value[i].height == r.width / 2
      && Within(q.value[i], r)
    ensures q.Some? ==> forall i, j :: 0 <= i < j < 4 ==> Disjoint(q.value[i], q.value[j])
    ensures q.Some? ==> forall px, py ::
      InRect(r, px, py) <==> exists i :: 0 <= i < 4 && InRect(q.value[i], px, py)
  {
    if r.width == 1 then
      None
    else
      var size := r.width / 2;
      var quads := [
        FromSquare(r.x, r.y, size),
        FromSquare(r.x, r.y + size, size),
        FromSquare(r.x + size, r.y, size),
        FromSquare(r.x + size, r.y + size, size)
      ];
      assert forall px, py :: InRect(r, px, py) ==> exists i :: 0 <= i < 4 && InRect(quads[i], px, py) by {
        forall px, py | InRect(r, px, py)
          ensures exists i :: 0 <= i < 4 && InRect(quads[i], px, py)
        {
          var i := (if px < r.x + size then 0 else 2) + (if py < r.y + size then 0 else 1);
          assert InRect(quads[i], px, py);
        }
      }
      Some(quads)
  }

  /** `self` sits directly above or below `other`, with the same columns. */
  predicate StackedVertically(a: Rect, b: Rect) {
    a.x == b.x && a.width == b.width && (a.y + a.height == b.y || b.y + b.height == a.y)
  }

  /** `self` sits directly left or right of `other`, with the same rows. */
  predicate StackedHorizontally(a: Rect, b: Rect) {
    a.y == b.y && a.height == b.height && (a.x + a.width == b.x || b.x + b.width == a.x)
  }

  /**
    * `Rectangle::merge`: the union of two rectangles that share a full edge,
    * or None when they do not.
    */
  function Merge(a: Rect, b: Rect): (m: Option<Rect>)
    ensures m.Some? <==> StackedVertically(a, b) || StackedHorizontally(a, b)
    ensures m.Some? ==> forall px, py :: InRect(m.value, px, py) <==> InRect(a, px, py) || InRect(b, px, py)
    ensures m.Some? ==> Area(m.value) == Area(a) + Area(b)
    ensures m.Some? ==>
      && m.value.x == (if a.x <= b.x then a.x else b.x)
      && m.value.y == (if a.y <= b.y then a.y else b.y)
      && m.value.x + m.value.width == (if a.x + a.width >= b.x + b.width then a.x + a.width else b.x + b.width)
      && m.value.y + m.value.height == (if a.y + a.height >= b.y + b.height then a.y + a.height else b.y + b.height)
  {
    if a.x == b.x && a.width == b.width && a.y + a.height == b.y then
      Distribute(a.width, a.height, b.height);
      Some(Rect(a.x, a.y, a.width, a.height + b.height))
    else if a.x == b.x && a.width == b.width && b.y + b.height == a.y then
      Distribute(a.width, a.height, b.height);
      Some(Rect(b.x, b.y, a.width, a.height + b.height))
    else if a.y == b.y && a.height == b.height && a.x + a.width == b.x then
      Distribute(a.height, a.width, b.width);
      Some(Rect(a.x, a.y, a.width + b.width, a.height))
    else if a.y == b.y && a.height == b.height && b.x + b.width == a.x then
      Distribute(a.height, a.width, b.width);
      Some(Rect(b.x, b.y, a.width + b.width, a.height))
    else
      None
  }

  lemma Distribute(k: nat, m: nat, n: nat)
    ensures k * (m + n) == k * m + k * n && (m + n) * k == m * k + n * k
  {
  }

  /** Merging does not depend on which rectangle is the receiver. */
  lemma MergeSymmetric(a: Rect, b: Rect)
    ensures Merge(a, b) == Merge(b, a)
  {
  }

  /** A rectangle with at least one cell is never adjacent to itself. */
  lemma NoSelfMerge(r: Rect)
    requires r.width >= 1 && r.height >= 1
    ensures Merge(r, r).None?
  {
  }

  /**
    * For rectangles with at least one cell, being separated along an axis is
    * the same as sharing no cell.
    */
  lemma DisjointIffNoCommonCell(a: Rect, b: Rect)
    requires a.width >= 1 && a.height >= 1 && b.width >= 1 && b.height >= 1
    ensures Disjoint(a, b) <==> forall px, py :: !(InRect(a, px, py) && InRect(b, px, py))
  {
    if !Disjoint(a, b) {
      var px := if a.x <= b.x then b.x else a.x;
      var py := if a.y <= b.y then b.y else a.y;
      assert InRect(a, px, py) && InRect(b, px, py);
    }
  }

  /** A rectangle inside `b` shares no cell with what `b` is disjoint from. */
  lemma WithinDisjoint(a: Rect, b: Rect, c: Rect)
    requires Within(a, b) && Disjoint(b, c)
    ensures Disjoint(a, c)
  {
  }
}

=== FILE: sorting.dfy ===
/**
  * Sorting by a comparator. The source sorts with `sort_unstable_by_key`,
  * `sort_unstable_by` and `select_nth_unstable_by_key`; the model uses one
  * insertion sort whose output meets the same postconditions (a sorted
  * permutation), and states its properties only through those postconditions.
  */
module Sorting {

  /** `le` is total and transitive: the weak order a comparator key induces. */
  ghost predicate TotalPreorder<T(!new)>(le: (T, T) -> bool) {
    && (forall a, b :: le(a, b) || le(b, a))
    && (forall a, b, c :: le(a, b) && le(b, c) ==> le(a, c))
  }

  /** Every earlier element is `le` every later one. */
  ghost predicate SortedBy<T>(s: seq<T>, le: (T, T) -> bool) {
    forall i, j :: 0 <= i < j < |s| ==> le(s[i], s[j])
  }

  /** Inserts `x` into the sorted `s` in front of the first element it is `le`. */
  function Insert<T(!new)>(x: T, s: seq<T>, le: (T, T) -> bool): (r: seq<T>)
    requires TotalPreorder(le)
    requires SortedBy(s, le)
    ensures multiset(r) == multiset(s) + multiset{x}
    ensures |r| == |s| + 1
    ensures SortedBy(r, le)
  {
    if |s| == 0 then [x]
    else if le(x, s[0]) then
      assert forall j :: 0 <= j < |s| ==> le(x, s[j]) by {
        forall j | 0 <= j < |s| ensures le(x, s[j]) {
          if j > 0 { assert le(s[0], s[j]); }
        }
      }
      ConsSorted(x, s, le);
      [x] + s
    else
      var rest := Insert(x, s[1..], le);
      HeadBoundsInsert(x, s, rest, le);
      ConsSorted(s[0], rest, le);
      assert s == [s[0]] + s[1..];
      [s[0]] + rest
  }

  /** Putting a lower bound of a sorted sequence in front keeps it sorted. */
  lemma ConsSorted<T>(h: T, s: seq<T>, le: (T, T) -> bool)
    requires SortedBy(s, le)
    requires forall j :: 0 <= j < |s| ==> le(h, s[j])
    ensures SortedBy([h] + s, le)
  {
    forall i, j | 0 <= i < j < |s| + 1 ensures le(([h] + s)[i], ([h] + s)[j]) {
      if i > 0 {
        assert ([h] + s)[i] == s[i - 1];
      }
      assert ([h] + s)[j] == s[j - 1];
    }
  }

  /** The head of a sorted `s` that is `le` to `x` bounds `x` inserted into the rest of `s`. */
  lemma HeadBoundsInsert<T(!new)>(x: T, s: seq<T>, rest: seq<T>, le: (T, T) -> bool)
    requires TotalPreorder(le) && SortedBy(s, le) && |s| >= 1 && le(s[0], x)
    requires multiset(rest) == multiset(s[1..]) + multiset{x}
    ensures forall j :: 0 <= j < |rest| ==> le(s[0], rest[j])
  {
    forall j | 0 <= j < |rest| ensures le(s[0], rest[j]) {
      assert rest[j] in multiset(rest);
      assert rest[j] == x || rest[j] in multiset(s[1..]);
      if rest[j] != x {
        var k :| 0 <= k < |s[1..]| && s[1..][k] == rest[j];
        assert le(s[0], s[k + 1]);
      }
    }
  }

  /** A sorted permutation of `s`. */
  function SortBy<T(!new)>(s: seq<T>, le: (T, T) -> bool): (r: seq<T>)
    requires TotalPreorder(le)
    ensures multiset(r) == multiset(s)
    ensures |r| == |s|
    ensures SortedBy(r, le)
  {
    if |s| == 0 then []
    else
      assert s == [s[0]] + s[1..];
      Insert(s[0], SortBy(s[1..], le), le)
  }

  /** No element of `s` occurs twice. */
  predicate NoDuplicates<T(==)>(s: seq<T>) {
    forall i, j :: 0 <= i < j < |s| ==> s[i] != s[j]
  }

  /** An element of a duplicate-free sequence occurs at most once. */
  lemma {:induction false} NoDuplicatesOnce<T>(s: seq<T>, x: T)
    requires NoDuplicates(s)
    ensures multiset(s)[x] <= 1
  {
    if |s| > 0 {
      var n := |s| - 1;
      assert s == s[..n] + [s[n]];
      assert NoDuplicates(s[..n]);
      NoDuplicatesOnce(s[..n], x);
      if s[n] == x {
        assert x !in s[..n];
      }
    }
  }

  /** Two equal elements at different positions make the multiplicity at least two. */
  lemma RepeatedTwice<T>(s: seq<T>, i: nat, j: nat)
    requires i < j < |s|
    ensures s[i] == s[j] ==> multiset(s)[s[i]] >= 2
  {
    assert s == s[..j] + [s[j]] + s[j + 1..];
    assert s[i] in s[..j];
  }

  /** A permutation of a duplicate-free sequence is duplicate-free. */
  lemma NoDuplicatesPermutation<T>(a: seq<T>, b: seq<T>)
    requires multiset(a) == multiset(b) && NoDuplicates(a)
    ensures NoDuplicates(b)
  {
    forall i, j | 0 <= i < j < |b| ensures b[i] != b[j] {
      RepeatedTwice(b, i, j);
      NoDuplicatesOnce(a, b[i]);
    }
  }

  /** `s` backwards. */
  function Reverse<T>(s: seq<T>): (r: seq<T>)
    ensures |r| == |s|
    ensures forall i :: 0 <= i < |s| ==> r[i] == s[|s| - 1 - i]
  {
    if |s| == 0 then [] else Reverse(s[1..]) + [s[0]]
  }

  /** Reversal keeps the elements and their multiplicities. */
  lemma {:induction false} ReversePermutes<T>(s: seq<T>)
    ensures multiset(Reverse(s)) == multiset(s)
  {
    if |s| > 0 {
      ReversePermutes(s[1..]);
      assert s == [s[0]] + s[1..];
    }
  }
}

=== FILE: wrappers.dfy ===
/** Failure-compatible wrappers shared by every module of the model. */
module Wrappers {

  /** Rust's `Option<T>`. */
  datatype Option<+T> = None | Some(value: T)

  /** The outcome of an operation that the source would abort with a panic. */
  datatype Result<+T, +E> = Ok(value: T) | Err(error: E)
}
